=== FILE: README.md ===
# Picking manager, Starbase pixel transfer and 3D button props

A Dafny model of three pieces of a VTK-era visualisation toolkit.

- **The picking manager** (`vtkPickingManager`) mediates between several pickers that answer the same interactor event. It keeps a registry mapping each picker to the objects linked with it. Its arbiter runs every picker's hit test and picks the one closest to the camera. It caches that choice until the interactor reports a new event.
  - The registry is in `picker_registry.dfy`.
  - The arbiter is in `picker_arbiter.dfy`.
  - The facade with its interaction clock is in `picking_manager.dfy`.
  - Properties that span several calls are in `picking_properties.dfy`.
- **The Starbase render window** reads and writes a rectangle of pixels as RGB triples (`GetPixelData` / `SetPixelData`). It converts them to and from 24-plane (three banks), 12-plane (nibble-doubled) and 8-plane (3:3:2 packed) frame buffers.
  - The byte-level conversions are in `pixel_formats.dfy`.
  - The rectangle transfers and their round trip are in `pixel_transfer.dfy`.
- **The 3D button representation** (`vtkProp3DButtonRepresentation`) keeps one prop per button state, with clamped state indices. It shows and picks the prop of the current state, and it can merge another representation's props. This is in `button_props.dfy`.

Pointers (pickers, objects, props, interactors) are modelled as addresses (`nat`); a nullable pointer is an `Option`. Each operation is a pure function from the old state to the new one. An operation whose C++ code has undefined behaviour on some input returns an `Outcome` (in `optional.dfy`).

Some behaviour cannot be expressed over this state and is supplied as a parameter instead:
- the pickers' hit tests and whether a renderer lies under the event (`PickingManager.Scene`);
- the interactor's ModifiedEvent observer, which becomes an explicit `UpdateTime` step;
- the picker of the button representation (a `Prop -> bool` hit oracle).

Where the comments and the code disagree, the model follows the code:
- `vtkPickingManager.h:40-41` says optimisation is off by default, but the constructor turns it on (`vtkPickingManager.cxx:299`).
- `vtkPickingManager.h:62-64` says RemoveObject removes *all* occurrences of the object. The code erases only the first link per picker (`vtkPickingManager.cxx:416-430`).
- A null object counts as a linked object in GetNumberOfObjectsLinked, as `vtkPickingManager.h:80-81` says.

## Model

| member | source | states |
|---|---|---|
| PickerRegistry.Link | Rendering/Core/vtkPickingManager.cxx:169-186 | A non-null object is appended only when it is not yet in the list; a null object is appended every time. The earlier links are kept in order, the number of null links grows only for a null object, and a list without repeated objects stays so. |
| PickerRegistry.IsObjectLinked | Rendering/Core/vtkPickingManager.cxx:189-208 | True exactly when both pointers are non-null, the picker is registered, and the object is in its list. |
| PickerRegistry.AddPicker | Rendering/Core/vtkPickingManager.cxx:344-370 | A null picker leaves the registry unchanged. Otherwise, an existing picker gains the object (null included) once, and a new picker is created holding just that object. Other pickers are untouched and validity (no duplicate links) is kept. |
| PickerRegistry.AddTwiceWithoutObject | Rendering/Core/vtkPickingManager.h:50-57 | Adding a new picker twice without an object registers it once, with two null links. |
| PickerRegistry.AddSameObjectTwice | Rendering/Core/vtkPickingManager.cxx:358-365 | For any registry, adding the same picker and non-null object twice equals adding them once. The object is then linked, and a new picker holds that single link. |
| PickerRegistry.ReAddKeepsPickerCount | Rendering/Core/vtkPickingManager.cxx:352-369 | Adding an already registered picker does not change the number of pickers. |
| PickerRegistry.RemovePicker | Rendering/Core/vtkPickingManager.cxx:373-405 | Only the given picker's list changes: the first link with the object is removed. The picker is dropped when its list becomes empty. A null or unregistered picker, or an object not linked, leaves the registry unchanged. |
| PickerRegistry.RemovePickerUndoesAddPicker | Rendering/Core/vtkPickingManager.cxx:344-405 | In a valid registry, removing a picker/object pair right after adding it restores the registry, whenever the object (null included) was not already in that picker's list or the picker was new. |
| PickerRegistry.RemoveObject | Rendering/Core/vtkPickingManager.cxx:408-433 | Every picker loses its first link with the object. A picker whose only link was that object is dropped, and every other picker stays. Validity is kept. |
| PickerRegistry.RemoveObjectUnlinks | Rendering/Core/vtkPickingManager.h:62-65 | In a valid registry, after RemoveObject no picker is linked with the object. The remaining pickers are exactly the old ones minus those linked with that object alone. |
| PickerRegistry.RemoveObjectAsWritten | Rendering/Core/vtkPickingManager.cxx:416-430 | The loop as written is undefined exactly when some picker is linked with the object alone: it erases that entry and then advances the invalidated iterator. Otherwise it agrees with RemoveObject. |
| PickerRegistry.RemoveObjectAsWrittenIsUndefined | Rendering/Core/vtkPickingManager.cxx:424-427 | A registry with one picker linked only with object 7 makes the as-written loop undefined, while the corrected RemoveObject drops that picker. |
| PickerRegistry.NumberOfPickers | Rendering/Core/vtkPickingManager.cxx:466-469 | The number of registered pickers; zero exactly for the registry with no picker. |
| PickerRegistry.NumberOfObjectsLinked | Rendering/Core/vtkPickingManager.cxx:472-490 | 0 for a null or unregistered picker; otherwise the length of the picker's list, null link included. |
| PickerRegistry.LengthCountsNullLinks | Rendering/Core/vtkPickingManager.h:80-82 | In a list without repeated objects, the length is the number of null links plus the number of distinct objects. |
| PickerArbiter.Ascending | Rendering/Core/vtkPickingManager.cxx:78-88 | The order in which the map visits its pickers: strictly increasing addresses, containing exactly the registered pickers. |
| PickerArbiter.ClosestHitIsUnique | Rendering/Core/vtkPickingManager.cxx:259-266 | At most one picker is the closest hit (closest, with ties going to the lower address): the arbitration is deterministic. |
| PickerArbiter.ScanFindsClosest | Rendering/Core/vtkPickingManager.cxx:248-268 | The loop that replaces its running minimum only on a strictly smaller squared distance ends holding the closest hit among all pickers it visited, or nothing if none hits. |
| PickerArbiter.ComputePickerSelection | Rendering/Core/vtkPickingManager.cxx:240-271 | With no renderer under the event, no picker runs and the result is null. Otherwise every picker runs once in ascending order. The winner is non-null exactly when some picker hits, and it is then the closest hit. |
| PickingManager.New | Rendering/Core/vtkPickingManager.cxx:293-300 | The new manager has no pickers and no interactor, is enabled, has optimisation on, and has equal time stamps. |
| PickingManager.UpdateTime | Rendering/Core/vtkPickingManager.cxx:274-287 | With an interactor, the interaction time strictly increases and nothing else changes. Without one, nothing changes. Consistency is preserved. |
| PickingManager.SetInteractor | Rendering/Core/vtkPickingManager.cxx:310-329 | Setting the current interactor again is a no-op; otherwise only the interactor changes. |
| PickingManager.SetOptimizeOnInteractorEvents | Rendering/Core/vtkPickingManager.cxx:332-341 | Ignored without an interactor; otherwise only the flag changes, to the given value. |
| PickingManager.SetEnabled | Rendering/Core/vtkPickingManager.h:32-37 | Only the Enabled flag changes. |
| PickingManager.AddPicker | Rendering/Core/vtkPickingManager.cxx:344-370 | Only the registry changes. A null picker changes nothing. A non-null picker ends up with at least one link and keeps every link it had, and a non-null object is then linked with it. No existing link is lost, and consistency is kept. |
| PickingManager.RemovePicker | Rendering/Core/vtkPickingManager.cxx:373-405 | Only the registry changes, and no picker is added. The picker's link count drops by one exactly when the object was linked with it. In a consistent manager, a non-null object is no longer linked with the picker afterwards. Consistency is kept. |
| PickingManager.RemoveObject | Rendering/Core/vtkPickingManager.cxx:408-433 | Only the registry changes, and no picker is added. In a consistent manager, a non-null object is linked with no picker afterwards. Consistency is kept. |
| PickingManager.GetNumberOfPickers | Rendering/Core/vtkPickingManager.cxx:466-469 | The number of registered pickers; adding a picker that is not yet registered raises it by one. |
| PickingManager.GetNumberOfObjectsLinked | Rendering/Core/vtkPickingManager.cxx:472-490 | 0 for a null or unregistered picker, otherwise the length of its list with null links included; at least one when some non-null object is linked with the picker. |
| PickingManager.SelectPicker | Rendering/Core/vtkPickingManager.cxx:211-237 | Without an interactor: null. While the cache is valid: the cached picker, with no picker run. Otherwise: a fresh arbitration (closest hit, every picker run once in ascending order), cached and stamped with the current interaction time. Only the cache fields change. |
| PickingManager.PickPicker | Rendering/Core/vtkPickingManager.cxx:460-463 | True exactly when the given picker is the one selected; a null picker is "picked" exactly when nothing is selected. Without an interactor, only the null picker is picked. After a fresh arbitration, a picker is picked exactly when it is the closest hit. |
| PickingManager.PickObject | Rendering/Core/vtkPickingManager.cxx:447-457 | True exactly when a picker is selected and the non-null object is linked with it; never true for a null object. |
| PickingManager.PickPickerObject | Rendering/Core/vtkPickingManager.cxx:436-444 | False, without running a selection, unless the object is linked with the picker; otherwise the same as Pick(picker). |
| PickingProperties.CachedSelectionRunsNoPicker | Rendering/Core/vtkPickingManager.cxx:214-236 | With optimisation on, a second selection with no interaction in between runs no picker and returns the first selection. The first runs each registered picker at most once. |
| PickingProperties.TwoPicksRunEachPickerOnce | Rendering/Core/vtkPickingManager.cxx:447-463 | Pick(object) followed by Pick(picker) with no interaction in between runs the hit tests only once. |
| PickingProperties.InteractionForcesArbitration | Rendering/Core/vtkPickingManager.cxx:217-231 | After an interaction, with a renderer under the event, the next selection runs exactly the registered pickers. |
| PickingProperties.CachedNullBeforeFirstInteraction | Rendering/Core/vtkPickingManager.cxx:217-221 | Both time stamps start equal, so the first selection before any interaction returns the cached null even over a picker that would hit. |
| PickingProperties.OptimisationOnByDefault | Rendering/Core/vtkPickingManager.cxx:299 | A new manager optimises, and setting the flag before an interactor is attached does not turn optimisation off. |
| PickingProperties.EnabledIsAdvisory | Rendering/Core/vtkPickingManager.cxx:436-463 | No Pick overload's answer depends on the Enabled flag. |
| PickingProperties.TieGoesToLowerAddress | Rendering/Core/vtkPickingManager.cxx:262 | When two pickers hit at the same distance, the lower address wins. |
| PickingProperties.ClosestHitWins | Rendering/Core/vtkPickingManager.cxx:240-271 | With hits at squared distances 10 and 3, Pick(picker 1) is false after running both pickers in order. A following Pick(picker 2) is true from the cache, with no picker run. |
| PickingProperties.PickObjectOnlyForLinkedObject | Rendering/Core/vtkPickingManager.cxx:447-457 | Pick(object) is true for the object linked with the winner and false for an unlinked one. |
| PickingProperties.CacheOutlivesRemoval | Rendering/Core/vtkPickingManager.cxx:217-221 | A picker removed after winning, with no interaction since, is still reported as picked. |
| PickingProperties.NullLinkIsCounted | Rendering/Core/vtkPickingManager.h:80-82 | A picker added without an object has one linked object. |
| PixelFormats.Pack332Promoted | src/SbrRenW.cc:994-996 | The packed value fits a byte, and its fields are the top 3 bits of red, the top 3 of green shifted to bits 4-2, and the top 2 of blue in bits 1-0. |
| PixelFormats.Pack332UsesTopBits | src/SbrRenW.cc:994-996 | The packed pixel depends only on the top 3 bits of red, the top 3 of green and the top 2 of blue. |
| PixelFormats.Pack332 | src/SbrRenW.cc:1303 | The byte stored is the `int`-promoted RGB_TO_332 value, which fits a byte, so the narrowing store loses nothing. |
| PixelFormats.Red332 | src/SbrRenW.cc:1002 | Bits 7-5 of the pixel, moved to the top of the red byte, with the low bits zero. |
| PixelFormats.Green332 | src/SbrRenW.cc:1003 | Bits 4-2 of the pixel, moved to the top of the green byte, with the low bits zero. |
| PixelFormats.Blue332 | src/SbrRenW.cc:1004 | Bits 1-0 of the pixel, moved to the top of the blue byte, with the low bits zero. |
| PixelFormats.Unpack332ThenPack | src/SbrRenW.cc:1151-1159 | Packing a read-back pixel's three channels restores the pixel. |
| PixelFormats.Pack332ThenUnpack | src/SbrRenW.cc:1299-1306 | Reading back a packed colour yields its top 3:3:2 bits. |
| PixelFormats.ReadNibbleHigh | src/SbrRenW.cc:1098-1109 | With the window's Buffer flag set, the byte read keeps the stored high nibble and duplicates it into the low nibble. |
| PixelFormats.ReadNibbleLow | src/SbrRenW.cc:1110-1121 | With the Buffer flag clear, the byte read keeps the stored low nibble and duplicates it into the high nibble. |
| PixelFormats.ReadNibble | src/SbrRenW.cc:1098-1121 | The Buffer flag picks the conversion: set, the stored high nibble is kept; clear, the stored low nibble is kept. Either way the byte returned has equal nibbles. |
| PixelFormats.WriteNibble | src/SbrRenW.cc:1260-1265 | The stored byte keeps the colour's high nibble in both halves. |
| PixelFormats.WriteNibbleIsStable | src/SbrRenW.cc:1098-1121 | A nibble-doubled byte is unchanged by another write, and by a read with either setting of the Buffer flag. |
| PixelFormats.Normalize | src/SbrRenW.cc:1025-1045 | The two coordinates in increasing order, whichever order they were given. |
| PixelFormats.NormalizeIsSymmetric | src/SbrRenW.cc:1197-1217 | Swapping the corners does not change the normalised span. |
| PixelFormats.PixelBufferSize | src/SbrRenW.cc:1023 | Three bytes per pixel of the rectangle including both corners; never zero. |
| PixelTransfer.FormatOf | src/SbrRenW.cc:1054-1160 | 24 planes read three banks, 12 planes the nibbles, and 8 planes without the shared colormap the 3:3:2 format. |
| PixelTransfer.InterleaveLayout | src/SbrRenW.cc:1067-1072 | The row read back holds pixel i's red, green and blue bytes at positions 3i, 3i+1 and 3i+2. |
| PixelTransfer.DeinterleaveLayout | src/SbrRenW.cc:1225-1230 | The red, green and blue rows take pixel i from bytes 3i, 3i+1 and 3i+2 of the data. |
| PixelTransfer.InterleaveDeinterleave | src/SbrRenW.cc:1223-1242 | Splitting RGB triples into three channel rows and interleaving them again restores the data. |
| PixelTransfer.DeinterleaveInterleave | src/SbrRenW.cc:1054-1073 | Interleaving three equal-length channel rows and splitting them again restores the rows. |
| PixelTransfer.GetPixelData | src/SbrRenW.cc:1009-1171 | The data read has exactly the size of the buffer allocated for the rectangle. |
| PixelTransfer.GetPixelDataCornerOrder | src/SbrRenW.cc:1025-1045 | Reading with the corners swapped returns the same data. |
| PixelTransfer.SetPixelData | src/SbrRenW.cc:1173-1326 | Every block write issued starts at the rectangle's left edge, lies on one of its rows and is exactly its width. |
| PixelTransfer.StoredInBanks | src/SbrRenW.cc:1231-1241 | After one row's writes on 24 or 12 planes, bank 2 holds red, bank 1 green and bank 0 blue, each converted for the format. |
| PixelTransfer.StoredPacked | src/SbrRenW.cc:1299-1311 | After one row's write on 8 planes, the single bank holds each pixel's 3:3:2 packed byte. |
| PixelTransfer.SetPixelDataStaysInside | src/SbrRenW.cc:1173-1326 | No pixel outside the rectangle changes, in any bank. |
| PixelTransfer.GetAfterSet | src/SbrRenW.cc:1009-1326 | Reading the rectangle just written returns the data written, up to the format's precision: exact on 24 planes, high nibble on 12 (with the frame buffer storing the whole byte), top 3:3:2 bits on 8. |
| PixelTransfer.GetAfterSetRgb24 | src/SbrRenW.cc:1054-1073 | On a 24-plane frame buffer the round trip restores the data exactly. |
| ButtonProps.New | Widgets/vtkProp3DButtonRepresentation.cxx:48-62 | A new representation has no props, no current prop, an empty pick list and does not follow the camera, so every state reads a null prop. |
| ButtonProps.Clamp | Widgets/vtkProp3DButtonRepresentation.cxx:93-100 | Valid indices are kept, negative ones become 0, and too-large ones become the last state; with at least one state the result is a valid index. |
| ButtonProps.ClampIsIdempotent | Widgets/vtkProp3DButtonRepresentation.cxx:113-120 | For any number of states, clamping an already clamped index changes nothing. |
| ButtonProps.SetButtonProp | Widgets/vtkProp3DButtonRepresentation.cxx:90-106 | The clamped index now holds the prop (possibly null). Every other entry and every other field is unchanged. |
| ButtonProps.GetButtonProp | Widgets/vtkProp3DButtonRepresentation.cxx:110-131 | The entry at the clamped index, or null when there is none. |
| ButtonProps.GetAfterSet | Widgets/vtkProp3DButtonRepresentation.cxx:90-131 | Getting after setting returns the prop set when both indices clamp to the same state, and the previous entry otherwise. |
| ButtonProps.OutOfRangeReachesLastState | Widgets/vtkProp3DButtonRepresentation.cxx:97-100 | Any two indices past the last state reach the same entry. |
| ButtonProps.SetState | Widgets/vtkProp3DButtonRepresentation.cxx:75-87 | The current prop becomes the state's prop, and the pick list holds exactly that prop (empty when it is null). Nothing else changes. |
| ButtonProps.SetStateShowsNewProp | Widgets/vtkProp3DButtonRepresentation.cxx:75-106 | A prop set for the current state becomes the current and only pickable prop once the state is re-entered. |
| ButtonProps.ComputeInteractionState | Widgets/vtkProp3DButtonRepresentation.cxx:237-254 | The representation becomes visible, and it is Inside exactly when some prop of the pick list is hit. |
| ButtonProps.InsideIffCurrentPropHit | Widgets/vtkProp3DButtonRepresentation.cxx:75-87 | After SetState on a state with a prop, the button is Inside exactly when that prop is hit. |
| ButtonProps.NoPropIsOutside | Widgets/vtkProp3DButtonRepresentation.cxx:82-86 | A state without a prop is always Outside. |
| ButtonProps.Overlay | Widgets/vtkProp3DButtonRepresentation.cxx:294-300 | Every entry of the source is copied over the table. Entries the source lacks are kept. |
| ButtonProps.ShallowCopy | Widgets/vtkProp3DButtonRepresentation.cxx:288-304 | From a button representation, its props are merged in and its FollowCamera flag is taken. From any other prop, nothing of this class changes. |
| ButtonProps.ShallowCopyIsIdempotent | Widgets/vtkProp3DButtonRepresentation.cxx:294-301 | Copying the same representation twice equals copying it once. |
| ButtonProps.ShallowCopyReadsSource | Widgets/vtkProp3DButtonRepresentation.cxx:294-300 | After a copy, every state the source has a prop for reads the source's prop. |
| ButtonProps.ShallowCopyAsWritten | Widgets/vtkProp3DButtonRepresentation.cxx:288-304 | The code as written is undefined exactly when the argument is not a button representation; otherwise it agrees with ShallowCopy. |
| ButtonProps.ShallowCopyAsWrittenIsUndefined | Widgets/vtkProp3DButtonRepresentation.cxx:301 | Copying from a non-button prop dereferences null, where the corrected copy leaves the button unchanged. |

## Left out

- Observers and events: the ModifiedEvent callback is the explicit `PickingManager.UpdateTime`, and the interaction time is a counter that moves by one. vtkTimeStamp's global counter is not modelled.
- Geometry: the pickers' `Pick` calls, FindPokedRenderer and the camera distance are given by the `Scene` oracle. No floating point is modelled; squared distances are `real`.
- The manager's own `Modified()` calls (vtkPickingManager.cxx:328 in SetInteractor, :340 in SetOptimizeOnInteractorEvents, and the one in the Enabled set macro) are not modelled: the manager has no modification time or observers here. Neither are the debug diagnostics: the one printed when AddPicker finds the picker already registered (vtkPickingManager.cxx:360-361), and the one printed when a duplicate link is ignored (vtkPickingManager.cxx:178-180). The model keeps only their effect on the registry.
- Reference counting of vtkSmartPointer, `PrintSelf`, and object deletion are not modelled.
- The 6|6|6 shared-colormap conversion of an 8-plane window is not part of this model: its encoder scales through a `double`, and its decoders are not its inverse, so there is no round trip to state. Neither are plane counts other than 8, 12 and 24, for which the buffer is left unfilled.
- Starbase calls other than the block read and write are not modelled: `clip_indicator`, bank switching, double-buffer selection and flushing. The bank is an argument of the frame-buffer function.
- PixelFormats.PixelBufferSize: `abs` and the `int` multiplication are unbounded here, so their overflow on huge rectangles is not modelled.
- PixelTransfer.SetPixelData: the caller's buffer must hold at least the rectangle's bytes; the C++ reads past its end otherwise, which is not modelled.
- PixelTransfer.GetAfterSet: the 12-plane frame buffer is modelled as storing the whole written byte, so the 12-plane round trip holds for either `Buffer` setting. On the device Starbase modifies only the half selected by the current buffer (src/SbrRenW.cc:1250-1254, flipped by `dbuffer_switch` at cc:173), so reading back with the other half selected would return the old half. That half-aware store is not modelled.
- PixelTransfer.GetPixelData: states the size of the result; its contents are stated through PixelTransfer.GetAfterSet.
- ButtonProps: PlaceWidget, BuildRepresentation, rendering and the Follower are not modelled. Neither is the per-entry transform of `vtkScaledProp`; an entry is the prop alone.
- ButtonProps.New: the number of states is set by the superclass (vtkButtonRepresentation, not part of this model) and is an argument here.
- ButtonProps.SetState: the state stored by the superclass (vtkButtonRepresentation, not part of this model) is an input. ShallowCopy leaves out the superclass's share of the copy.

## Findings

| source | as written | input that shows it | evidently intended | confidence | as-written member | corrected member |
|---|---|---|---|---|---|---|
| Rendering/Core/vtkPickingManager.cxx:424-427 | When a picker's list becomes empty, RemoveObject erases that map entry and then `continue`s. The next iteration compares and dereferences the erased iterator, which is undefined behaviour. | A registry whose picker 1 is linked only with object 7, and RemoveObject(7). | Drop the emptied picker and go on with the next one. | not executed | PickerRegistry.RemoveObjectAsWritten | PickerRegistry.RemoveObject |
| Widgets/vtkProp3DButtonRepresentation.cxx:301 | ShallowCopy reads `rep->FollowCamera` outside the `if (rep)` guard, so a prop that is not a vtkProp3DButtonRepresentation dereferences null. | ShallowCopy(dst, None), where the down-cast fails. | Copy FollowCamera only from a button representation. | not executed | ButtonProps.ShallowCopyAsWritten | ButtonProps.ShallowCopy |

=== FILE: button_props.dfy ===
/**
 The prop table of vtkProp3DButtonRepresentation: one vtkProp3D per button
 state, kept in a map from state index to prop, with indices clamped to the
 button's states.  Props are identified by their address; a null prop is
 `None`.  The geometry a prop is fitted to (PlaceWidget) and rendering are
 not part of this model.
 */
module ButtonProps {
  import opened Optional

  type Prop = nat

  /** The map from state index to the prop shown in that state; an entry may
      hold a null prop. */
  type PropTable = map<int, Option<Prop>>

  datatype InteractionState = Outside | Inside

  datatype Button = Button(
    numberOfStates: int,
    state: int,
    props: PropTable,
    currentProp: Option<Prop>,
    pickList: seq<Prop>,
    followCamera: bool,
    visible: bool,
    interactionState: InteractionState)

  /** The button as constructed: no current prop, no props, an empty pick
      list, not following the camera; every state reads a null prop.  The
      number of states is set by the superclass and is an input here. */
  function New(numberOfStates: int): (b: Button)
    ensures b.numberOfStates == numberOfStates
    ensures b.props == map[] && b.currentProp == None && b.pickList == [] && !b.followCamera
    ensures forall i :: GetButtonProp(b, i) == None
  {
    Button(numberOfStates, 0, map[], None, [], false, true, Outside)
  }

  // ---------------------------------------------------------------------------
  // The clamped index

  /** The index an access with `i` uses when the button has `n` states:
      a negative index becomes 0 and one past the last state becomes the
      last state, in that order. */
  function Clamp(i: int, n: int): (j: int)
    ensures n >= 1 ==> 0 <= j < n
    ensures 0 <= i < n ==> j == i
    ensures i < 0 && n >= 1 ==> j == 0
    ensures i >= n || n < 1 ==> j == n - 1
  {
    var k := if i < 0 then 0 else i;
    if k >= n then n - 1 else k
  }

  /** Clamping twice is clamping once. */
  lemma ClampIsIdempotent(i: int, n: int)
    ensures Clamp(Clamp(i, n), n) == Clamp(i, n)
  {
  }

  /** Clamping keeps the order of indices. */
  lemma ClampIsMonotone(i: int, j: int, n: int)
    requires i <= j
    ensures Clamp(i, n) <= Clamp(j, n)
  {
  }

  // ---------------------------------------------------------------------------
  // Setting and getting props

  /** SetButtonProp: store `prop` (possibly null) at the clamped index. */
  function SetButtonProp(b: Button, i: int, prop: Option<Prop>): (r: Button)
    ensures var k := Clamp(i, b.numberOfStates);
            && k in r.props && r.props[k] == prop
            && r.props.Keys == b.props.Keys + {k}
            && (forall j | j in b.props && j != k :: r.props[j] == b.props[j])
    ensures r.(props := b.props) == b
  {
    b.(props := b.props[Clamp(i, b.numberOfStates) := prop])
  }

  /** GetButtonProp: the prop at the clamped index, null when there is no entry. */
  function GetButtonProp(b: Button, i: int): (r: Option<Prop>)
    ensures Clamp(i, b.numberOfStates) !in b.props ==> r == None
    ensures Clamp(i, b.numberOfStates) in b.props ==> r == b.props[Clamp(i, b.numberOfStates)]
  {
    var k := Clamp(i, b.numberOfStates);
    if k in b.props then b.props[k] else None
  }

  /** A get after a set returns the prop set when both use the same clamped
      index, and what was there before otherwise. */
  lemma GetAfterSet(b: Button, i: int, j: int, prop: Option<Prop>)
    ensures GetButtonProp(SetButtonProp(b, i, prop), j)
            == if Clamp(i, b.numberOfStates) == Clamp(j, b.numberOfStates) then prop else GetButtonProp(b, j)
  {
  }

  /** Every index at or past the last state reaches the last state's prop. */
  lemma OutOfRangeReachesLastState(b: Button, i: int, j: int, prop: Option<Prop>)
    requires i >= b.numberOfStates && j >= b.numberOfStates
    ensures GetButtonProp(SetButtonProp(b, i, prop), j) == prop
  {
  }

  /** Setting the prop a state already shows changes nothing that can be read. */
  lemma SetWhatIsThere(b: Button, i: int, j: int)
    requires Clamp(i, b.numberOfStates) in b.props
    ensures GetButtonProp(SetButtonProp(b, i, GetButtonProp(b, i)), j) == GetButtonProp(b, j)
  {
  }

  // ---------------------------------------------------------------------------
  // The current state

  /** SetState: the prop of the state becomes the current prop, and the
      picker's pick list holds exactly that prop.  The state stored is the
      one vtkButtonRepresentation::SetState settles on, which is an input
      here (that class is not part of this model). */
  function SetState(b: Button, stored: int): (r: Button)
    ensures r.state == stored
    ensures r.currentProp == GetButtonProp(b, stored)
    ensures |r.pickList| <= 1 && forall q :: q in r.pickList <==> r.currentProp == Some(q)
    ensures r.(state := b.state, currentProp := b.currentProp, pickList := b.pickList) == b
  {
    var current := GetButtonProp(b, stored);
    b.(state := stored, currentProp := current,
       pickList := if current.Some? then [current.value] else [])
  }

  /** Re-entering the state a button is in changes nothing more. */
  lemma SetStateIsIdempotent(b: Button, stored: int)
    ensures SetState(SetState(b, stored), stored) == SetState(b, stored)
  {
  }

  /** A prop set for the current state shows once the state is re-entered. */
  lemma SetStateShowsNewProp(b: Button, prop: Prop)
    ensures var r := SetState(SetButtonProp(b, b.state, Some(prop)), b.state);
            r.currentProp == Some(prop) && r.pickList == [prop]
  {
  }

  // ---------------------------------------------------------------------------
  // Interaction

  /** ComputeInteractionState: the representation is made visible and picked
      at the cursor from its pick list; `hit` says which props are under the
      cursor (the pick itself is geometry, not part of this model).  Inside
      exactly when some prop of the pick list is hit. */
  function ComputeInteractionState(b: Button, hit: Prop -> bool): (r: Button)
    ensures r.visible
    ensures r.interactionState == Inside <==> exists q :: q in b.pickList && hit(q)
    ensures r.(visible := b.visible, interactionState := b.interactionState) == b
  {
    var pathFound := exists q | q in b.pickList :: hit(q);
    b.(visible := true, interactionState := if pathFound then Inside else Outside)
  }

  /** A state without a prop can never be pointed at. */
  lemma NoPropIsOutside(b: Button, stored: int, hit: Prop -> bool)
    requires GetButtonProp(b, stored) == None
    ensures ComputeInteractionState(SetState(b, stored), hit).interactionState == Outside
  {
  }

  /** A state with a prop is pointed at exactly when that prop is hit. */
  lemma InsideIffCurrentPropHit(b: Button, stored: int, hit: Prop -> bool)
    requires GetButtonProp(b, stored).Some?
    ensures ComputeInteractionState(SetState(b, stored), hit).interactionState == Inside
            <==> hit(GetButtonProp(b, stored).value)
  {
    var r := SetState(b, stored);
    assert r.pickList == [GetButtonProp(b, stored).value];
  }

  // ---------------------------------------------------------------------------
  // ShallowCopy

  /** The table of `dst` with every entry of `src` copied over it. */
  function Overlay(dst: PropTable, src: PropTable): (r: PropTable)
    ensures r.Keys == dst.Keys + src.Keys
    ensures forall k | k in src :: r[k] == src[k]
    ensures forall k | k in dst && k !in src :: r[k] == dst[k]
  {
    dst + src
  }

  /** ShallowCopy from a representation that may not be a
      vtkProp3DButtonRepresentation (`None`): from one that is, its props are
      merged over this one's and its FollowCamera flag is taken; from any
      other prop nothing of this class is copied (the superclass's share of
      the copy is not part of this model). */
  function ShallowCopy(dst: Button, src: Option<Button>): (r: Button)
    ensures src.None? ==> r == dst
    ensures src.Some? ==> r.props == Overlay(dst.props, src.value.props) && r.followCamera == src.value.followCamera
    ensures r.(props := dst.props, followCamera := dst.followCamera) == dst
  {
    match src
    case None => dst
    case Some(s) => dst.(props := Overlay(dst.props, s.props), followCamera := s.followCamera)
  }

  /** Copying the same representation twice is copying it once. */
  lemma ShallowCopyIsIdempotent(dst: Button, src: Button)
    ensures ShallowCopy(ShallowCopy(dst, Some(src)), Some(src)) == ShallowCopy(dst, Some(src))
  {
    var once := ShallowCopy(dst, Some(src));
    assert Overlay(once.props, src.props) == once.props;
  }

  /** After a copy, every state of the source reads the source's prop. */
  lemma ShallowCopyReadsSource(dst: Button, src: Button, i: int)
    requires dst.numberOfStates == src.numberOfStates
    requires Clamp(i, src.numberOfStates) in src.props
    ensures GetButtonProp(ShallowCopy(dst, Some(src)), i) == GetButtonProp(src, i)
  {
  }

  /** ShallowCopy as written: the FollowCamera flag is read through the
      down-cast pointer even when the cast failed, a null dereference. */
  function ShallowCopyAsWritten(dst: Button, src: Option<Button>): (r: Outcome<Button>)
    ensures r.Undefined? <==> src.None?
    ensures r.Defined? ==> r.value == ShallowCopy(dst, src)
  {
    match src
    case None => Undefined
    case Some(s) => Defined(dst.(props := Overlay(dst.props, s.props), followCamera := s.followCamera))
  }

  /** The defect: copying from a prop that is not a button representation
      dereferences null, where the evident intent is to copy nothing. */
  lemma ShallowCopyAsWrittenIsUndefined(dst: Button)
    ensures ShallowCopyAsWritten(dst, None).Undefined? && ShallowCopy(dst, None) == dst
  {
  }
}

=== FILE: optional.dfy ===
/** A nullable value: `None` stands for the null pointer of the modelled C++ code. */
module Optional {

  datatype Option<+T> = None | Some(value: T)

  /** What a call leaves behind: its result, or undefined behaviour of the
      modelled C++ code. */
  datatype Outcome<+T> = Defined(value: T) | Undefined

}

=== FILE: picker_arbiter.dfy ===
/**
 The selection arbiter of vtkPickingManager (ComputePickerSelection): every
 registered picker is run in the map's iteration order, which is ascending
 picker address, and the hit closest to the active camera wins.  The running
 minimum is only replaced on a strictly smaller squared distance, so on a tie
 the picker met first (the lowest address) keeps the win.
 */
module PickerArbiter {
  import opened Optional
  import opened PickerRegistry

  /** What a picker's hit test reports at the event position: the squared
      distance from the active camera to its pick position when it hits,
      `None` when it does not. */
  type HitTest = Picker -> Option<real>

  /** The running minimum of the selection loop. */
  datatype Best = Best(picker: Picker, distance2: real)

  /** The outcome of one arbitration: the winner (null when none) and the
      pickers whose hit test was run, in the order they were run. */
  datatype Selection = Selection(winner: Option<Picker>, invoked: seq<Picker>)

  /** Strictly increasing addresses. */
  predicate Increasing(order: seq<Picker>)
  {
    forall i, j | 0 <= i < j < |order| :: order[i] < order[j]
  }

  /** `x` is the least address of `s`. */
  predicate IsLeast(s: set<Picker>, x: Picker)
  {
    x in s && forall y | y in s :: x <= y
  }

  /** Every non-empty set of addresses has a least element. */
  lemma {:induction false} LeastExists(s: set<Picker>)
    requires s != {}
    ensures exists x :: IsLeast(s, x)
  {
    var x :| x in s;
    if s == {x} {
      assert IsLeast(s, x);
    } else {
      var rest := s - {x};
      LeastExists(rest);
      var z :| IsLeast(rest, z);
      var m := if x < z then x else z;
      forall y | y in s ensures m <= y {
        if y != x {
          assert y in rest;
        }
      }
      assert IsLeast(s, m);
    }
  }

  /** A set has at most one least element. */
  lemma LeastIsUnique(s: set<Picker>)
    ensures forall x, y | IsLeast(s, x) && IsLeast(s, y) :: x == y
  {
  }

  /** The keys of a std::map in iteration order: ascending address. */
  function Ascending(keys: set<Picker>): (order: seq<Picker>)
    ensures Increasing(order)
    ensures forall p :: p in order <==> p in keys
    decreases |keys|
  {
    if keys == {} then []
    else
      LeastExists(keys);
      LeastIsUnique(keys);
      var least :| IsLeast(keys, least);
      [least] + Ascending(keys - {least})
  }

  /** `p` hits, no hitting picker is closer, and every hitting picker with a
      lower address is strictly farther. */
  ghost predicate IsClosestHit(keys: set<Picker>, hit: HitTest, p: Picker)
  {
    && p in keys && hit(p).Some?
    && forall q | q in keys && hit(q).Some? ::
         && hit(p).value <= hit(q).value
         && (q < p ==> hit(p).value < hit(q).value)
  }

  /** No picker of `keys` hits. */
  ghost predicate NoHit(keys: set<Picker>, hit: HitTest)
  {
    forall q | q in keys :: hit(q).None?
  }

  /** There is at most one closest hit: the arbitration is deterministic. */
  lemma ClosestHitIsUnique(keys: set<Picker>, hit: HitTest, p: Picker, q: Picker)
    requires IsClosestHit(keys, hit, p) && IsClosestHit(keys, hit, q)
    ensures p == q
  {
  }

  /** The running minimum is the closest hit among the pickers already run. */
  ghost predicate IsBestOf(done: set<Picker>, hit: HitTest, best: Option<Best>)
  {
    && (best.None? ==> NoHit(done, hit))
    && (best.Some? ==> IsClosestHit(done, hit, best.value.picker)
                       && best.value.distance2 == hit(best.value.picker).value)
  }

  /** One step of the loop: keep the running minimum unless `p` hits strictly closer. */
  function Step(best: Option<Best>, p: Picker, hit: HitTest): Option<Best>
  {
    match hit(p)
    case None => best
    case Some(d) => if best.None? || best.value.distance2 > d then Some(Best(p, d)) else best
  }

  /** The loop over the remaining pickers, in the given order. */
  function Scan(order: seq<Picker>, hit: HitTest, best: Option<Best>): Option<Best>
  {
    if order == [] then best else Scan(order[1..], hit, Step(best, order[0], hit))
  }

  /** Running a picker with a higher address than all those already run keeps
      the running minimum the closest hit. */
  lemma StepKeepsBest(done: set<Picker>, hit: HitTest, best: Option<Best>, p: Picker)
    requires IsBestOf(done, hit, best)
    requires forall q | q in done :: q < p
    ensures IsBestOf(done + {p}, hit, Step(best, p, hit))
  {
  }

  /** Scanning pickers in ascending order yields the closest hit among all of them. */
  lemma {:induction false} ScanFindsClosest(done: set<Picker>, order: seq<Picker>, hit: HitTest, best: Option<Best>)
    requires Increasing(order)
    requires forall q, i | q in done && 0 <= i < |order| :: q < order[i]
    requires IsBestOf(done, hit, best)
    ensures IsBestOf(done + (set q | q in order), hit, Scan(order, hit, best))
    decreases |order|
  {
    if order != [] {
      var p := order[0];
      StepKeepsBest(done, hit, best, p);
      ScanFindsClosest(done + {p}, order[1..], hit, Step(best, p, hit));
      assert done + {p} + (set q | q in order[1..]) == done + (set q | q in order);
    }
  }

  /** ComputePickerSelection: without a poked renderer no picker is run and the
      result is null; otherwise every registered picker is run once, in
      ascending address order, and the winner is the closest hit (null when
      nothing hits). */
  function ComputePickerSelection(reg: Registry, hasRenderer: bool, hit: HitTest): (r: Selection)
    ensures !hasRenderer ==> r.winner.None? && r.invoked == []
    ensures hasRenderer ==> Increasing(r.invoked) && forall p :: p in r.invoked <==> p in reg
    ensures r.winner.Some? <==> hasRenderer && exists p :: p in reg && hit(p).Some?
    ensures r.winner.Some? ==> IsClosestHit(reg.Keys, hit, r.winner.value)
  {
    if !hasRenderer then Selection(None, [])
    else
      var order := Ascending(reg.Keys);
      var best := Scan(order, hit, None);
      ScanFindsClosest({}, order, hit, None);
      assert {} + (set q | q in order) == reg.Keys;
      Selection(if best.Some? then Some(best.value.picker) else None, order)
  }
}

=== FILE: picker_registry.dfy ===
/**
 The registry of vtkPickingManager: a map from each registered picker to the
 ordered list of objects linked with it.  Pickers and objects are identified
 by their address; a null object is a legitimate list element, distinct from
 "no entry", so a picker may be registered with one or several null links.
 */
module PickerRegistry {
  import opened Optional

  /** A picker, identified (and ordered) by its address. */
  type Picker = nat

  /** A linked object (a widget or representation), identified by its address. */
  type Client = nat

  /** The objects linked with one picker, in insertion order; `None` is a null link. */
  type Clients = seq<Option<Client>>

  /** Pickers to their linked objects; a null picker is never a key. */
  type Registry = map<Picker, Clients>

  /** A non-null obj appears at most once in a list; null links may repeat. */
  ghost predicate NoDuplicateObjects(cs: Clients)
  {
    forall i, j | 0 <= i < j < |cs| :: cs[i] == cs[j] ==> cs[i] == None
  }

  /** The registry invariant: no picker is kept with an empty list, and lists
      hold no repeated non-null obj. */
  ghost predicate Valid(reg: Registry)
  {
    forall p | p in reg :: reg[p] != [] && NoDuplicateObjects(reg[p])
  }

  /** Position of the first occurrence of `obj` in `cs`. */
  function FirstIndex(cs: Clients, obj: Option<Client>): (i: nat)
    requires obj in cs
    ensures i < |cs| && cs[i] == obj && obj !in cs[..i]
  {
    if cs[0] == obj then 0 else 1 + FirstIndex(cs[1..], obj)
  }

  /** The registry with no picker at all. */
  function Empty(): (reg: Registry)
    ensures Valid(reg) && |reg| == 0
  {
    map[]
  }

  /** LinkPickerObject: append `obj` to a picker's list unless it is a non-null
      obj already in it; a null object is appended every time. */
  function Link(cs: Clients, obj: Option<Client>): (r: Clients)
    ensures obj in r
    ensures forall o :: o in r <==> o in cs || o == obj
    ensures obj.Some? && obj in cs ==> r == cs
    ensures obj.None? || obj !in cs ==> |r| == |cs| + 1 && r[..|cs|] == cs
    ensures multiset(r)[None] == multiset(cs)[None] + (if obj.None? then 1 else 0)
    ensures NoDuplicateObjects(cs) ==> NoDuplicateObjects(r)
  {
    if obj.Some? && obj in cs then cs else cs + [obj]
  }

  /** Erase the first occurrence of `obj` from `cs`, keeping the order of the rest. */
  function RemoveFirst(cs: Clients, obj: Option<Client>): (r: Clients)
    ensures obj !in cs ==> r == cs
    ensures obj in cs ==> r == cs[..FirstIndex(cs, obj)] + cs[FirstIndex(cs, obj) + 1..]
    ensures |r| == if obj in cs then |cs| - 1 else |cs|
  {
    if cs == [] then []
    else if cs[0] == obj then cs[1..]
    else
      var rest := RemoveFirst(cs[1..], obj);
      assert cs == [cs[0]] + cs[1..];
      assert obj in cs ==> [cs[0]] + rest == cs[..FirstIndex(cs, obj)] + cs[FirstIndex(cs, obj) + 1..] by {
        if obj in cs {
          var k := FirstIndex(cs[1..], obj);
          assert FirstIndex(cs, obj) == k + 1;
          assert cs[..k + 1] == [cs[0]] + cs[1..][..k];
          assert cs[k + 2..] == cs[1..][k + 1..];
        }
      }
      [cs[0]] + rest
  }

  /** Removing the first occurrence takes exactly one copy of `obj` out of the
      multiset of links, and nothing when `obj` is absent. */
  lemma RemoveFirstMultiset(cs: Clients, obj: Option<Client>)
    ensures multiset(RemoveFirst(cs, obj)) == multiset(cs) - multiset{obj}
  {
    if obj in cs {
      var k := FirstIndex(cs, obj);
      assert cs == cs[..k] + [obj] + cs[k + 1..];
      assert multiset(cs) == multiset(cs[..k]) + multiset{obj} + multiset(cs[k + 1..]);
    } else {
      assert multiset(cs)[obj] == 0;
      assert multiset(cs) - multiset{obj} == multiset(cs);
    }
  }

  /** Removing an element keeps a list free of repeated non-null objects. */
  lemma RemoveFirstKeepsNoDuplicates(cs: Clients, obj: Option<Client>)
    ensures NoDuplicateObjects(cs) ==> NoDuplicateObjects(RemoveFirst(cs, obj))
  {
    if obj in cs && NoDuplicateObjects(cs) {
      var k := FirstIndex(cs, obj);
      var r := RemoveFirst(cs, obj);
      forall i, j | 0 <= i < j < |r| && r[i] == r[j]
        ensures r[i] == None
      {
        var i' := if i < k then i else i + 1;
        var j' := if j < k then j else j + 1;
        assert r[i] == cs[i'] && r[j] == cs[j'];
      }
    }
  }

  /** IsObjectLinked: false for a null picker or obj, or an unregistered picker. */
  function IsObjectLinked(reg: Registry, picker: Option<Picker>, obj: Option<Client>): (linked: bool)
    ensures linked <==> obj.Some? && IsRegisteredWith(reg, picker, obj)
    ensures linked ==> NumberOfObjectsLinked(reg, picker) >= 1
  {
    picker.Some? && obj.Some? && picker.value in reg && obj in reg[picker.value]
  }

  /** GetNumberOfPickers: the number of registered pickers, zero exactly for
      the registry with no picker. */
  function NumberOfPickers(reg: Registry): (n: nat)
    ensures n == |reg.Keys|
    ensures n == 0 <==> reg == Empty()
  {
    |reg|
  }

  /** GetNumberOfObjectsLinked: the length of the picker's list, null links
      included; 0 for a null or unregistered picker. */
  function NumberOfObjectsLinked(reg: Registry, picker: Option<Picker>): (n: nat)
    ensures picker.None? || picker.value !in reg ==> n == 0
    ensures picker.Some? && picker.value in reg ==> n == |reg[picker.value]|
    ensures Valid(reg) && picker.Some? && picker.value in reg ==> n >= 1
  {
    if picker.None? || picker.value !in reg then 0 else |reg[picker.value]|
  }

  /** The non-null objects of a list. */
  ghost function Objects(cs: Clients): set<Client>
  {
    set o | o in cs && o.Some? :: o.value
  }

  /** In a list without repeated non-null objects, the length is the number of
      null links plus the number of distinct linked objects. */
  lemma {:induction false} LengthCountsNullLinks(cs: Clients)
    requires NoDuplicateObjects(cs)
    ensures |cs| == multiset(cs)[None] + |Objects(cs)|
  {
    if cs != [] {
      var init, last := cs[..|cs| - 1], cs[|cs| - 1];
      assert cs == init + [last];
      assert NoDuplicateObjects(init) by {
        forall i, j | 0 <= i < j < |init| && init[i] == init[j] ensures init[i] == None {
          assert cs[i] == cs[j];
        }
      }
      LengthCountsNullLinks(init);
      if last.Some? {
        assert last !in init by {
          forall i | 0 <= i < |init| ensures init[i] != last {
            assert init[i] == cs[i];
          }
        }
        assert last.value !in Objects(init);
        assert Objects(cs) == Objects(init) + {last.value};
      } else {
        assert Objects(cs) == Objects(init);
      }
    }
  }

  // ---------------------------------------------------------------------------
  // Registration

  /** AddPicker: a null picker is ignored; a registered picker gets `obj`
      linked; a new picker gets the one-element list `[obj]`. */
  function AddPicker(reg: Registry, picker: Option<Picker>, obj: Option<Client>): (r: Registry)
    ensures picker.None? ==> r == reg
    ensures picker.Some? ==> r.Keys == reg.Keys + {picker.value}
    ensures picker.Some? && picker.value !in reg ==> r[picker.value] == [obj]
    ensures picker.Some? && picker.value in reg ==> r[picker.value] == Link(reg[picker.value], obj)
    ensures forall q | q in reg && picker != Some(q) :: q in r && r[q] == reg[q]
    ensures Valid(reg) ==> Valid(r)
  {
    if picker.None? then reg
    else if picker.value in reg then reg[picker.value := Link(reg[picker.value], obj)]
    else reg[picker.value := [obj]]
  }

  /** RemovePicker: drop the first link to `obj` from the picker's list,
      erasing the picker once its list is empty; otherwise nothing changes. */
  function RemovePicker(reg: Registry, picker: Option<Picker>, obj: Option<Client>): (r: Registry)
    ensures !IsRegisteredWith(reg, picker, obj) ==> r == reg
    ensures IsRegisteredWith(reg, picker, obj) ==>
              var p := picker.value;
              && (p in r <==> |reg[p]| > 1)
              && (p in r ==> r[p] == RemoveFirst(reg[p], obj))
              && (p in r ==> multiset(r[p]) == multiset(reg[p]) - multiset{obj})
              && r.Keys <= reg.Keys
              && forall q | q in reg && q != p :: q in r && r[q] == reg[q]
    ensures Valid(reg) ==> Valid(r)
  {
    if !IsRegisteredWith(reg, picker, obj) then reg
    else
      var p := picker.value;
      var rest := RemoveFirst(reg[p], obj);
      RemoveFirstKeepsNoDuplicates(reg[p], obj);
      RemoveFirstMultiset(reg[p], obj);
      if |rest| == 0 then reg - {p} else reg[p := rest]
  }

  /** The picker is registered and `obj` (possibly null) is in its list. */
  predicate IsRegisteredWith(reg: Registry, picker: Option<Picker>, obj: Option<Client>)
  {
    picker.Some? && picker.value in reg && obj in reg[picker.value]
  }

  /** RemoveObject (intended semantics): every entry loses one occurrence of
      `obj`, entries left empty are erased, and other entries are unchanged. */
  function RemoveObject(reg: Registry, obj: Option<Client>): (r: Registry)
    ensures forall p :: p in r <==> p in reg && reg[p] != [obj]
    ensures forall p | p in r :: r[p] == RemoveFirst(reg[p], obj)
    ensures forall p | p in reg && obj !in reg[p] :: p in r && r[p] == reg[p]
    ensures Valid(reg) ==> Valid(r)
  {
    var r := map p | p in reg && !(obj in reg[p] && |RemoveFirst(reg[p], obj)| == 0) :: RemoveFirst(reg[p], obj);
    assert Valid(reg) ==> Valid(r) by {
      forall p | p in r ensures NoDuplicateObjects(reg[p]) ==> NoDuplicateObjects(r[p]) {
        RemoveFirstKeepsNoDuplicates(reg[p], obj);
      }
    }
    r
  }

  // ---------------------------------------------------------------------------
  // Properties promised by the public interface

  /** Adding a picker twice without an object registers it once, with two null links. */
  lemma AddTwiceWithoutObject(reg: Registry, p: Picker)
    requires p !in reg
    ensures var r := AddPicker(AddPicker(reg, Some(p), None), Some(p), None);
            && NumberOfPickers(r) == NumberOfPickers(reg) + 1
            && NumberOfObjectsLinked(r, Some(p)) == 2
            && r[p] == [None, None]
  {
  }

  /** Adding the same picker and non-null object twice is adding them once:
      the second call finds the link and keeps a single one. */
  lemma AddSameObjectTwice(reg: Registry, p: Picker, o: Client)
    ensures AddPicker(AddPicker(reg, Some(p), Some(o)), Some(p), Some(o)) == AddPicker(reg, Some(p), Some(o))
    ensures var r := AddPicker(AddPicker(reg, Some(p), Some(o)), Some(p), Some(o));
            && IsObjectLinked(r, Some(p), Some(o))
            && (p !in reg ==> NumberOfObjectsLinked(r, Some(p)) == 1)
  {
  }

  /** Re-adding a registered picker, with any object, does not change the picker count. */
  lemma ReAddKeepsPickerCount(reg: Registry, p: Picker, o: Option<Client>)
    requires p in reg
    ensures NumberOfPickers(AddPicker(reg, Some(p), o)) == NumberOfPickers(reg)
  {
    assert AddPicker(reg, Some(p), o).Keys == reg.Keys;
  }

  /** RemovePicker undoes AddPicker whenever the added link was new: for a fresh
      picker, or for an object (null included) not yet in its list. */
  lemma RemovePickerUndoesAddPicker(reg: Registry, p: Picker, o: Option<Client>)
    requires Valid(reg)
    requires !IsRegisteredWith(reg, Some(p), o)
    ensures RemovePicker(AddPicker(reg, Some(p), o), Some(p), o) == reg
  {
    var added := AddPicker(reg, Some(p), o);
    if p in reg {
      var cs := reg[p];
      assert added == reg[p := Link(cs, o)];
      RemoveUndoesLink(cs, o);
      assert IsRegisteredWith(added, Some(p), o);
      assert |RemoveFirst(added[p], o)| != 0;
      assert RemovePicker(added, Some(p), o) == added[p := cs];
      RestoreEntry(reg, p, Link(cs, o));
    } else {
      assert added == reg[p := [o]];
      assert RemoveFirst([o], o) == [];
      assert RemovePicker(added, Some(p), o) == added - {p};
      assert added - {p} == reg;
    }
  }

  /** Overwriting an entry and then writing its old value back restores the map. */
  lemma RestoreEntry(reg: Registry, p: Picker, cs: Clients)
    requires p in reg
    ensures reg[p := cs][p := reg[p]] == reg
  {
  }

  /** Removing the first copy of an object that was just appended as a new link
      restores the list. */
  lemma RemoveUndoesLink(cs: Clients, o: Option<Client>)
    requires o !in cs
    ensures RemoveFirst(Link(cs, o), o) == cs
  {
    assert Link(cs, o) == cs + [o];
    assert (cs + [o])[..|cs|] == cs;
    assert FirstIndex(cs + [o], o) == |cs|;
  }

  /** The pickers whose only link is `obj`. */
  ghost function SoleLinkedTo(reg: Registry, obj: Option<Client>): set<Picker>
  {
    set p | p in reg && reg[p] == [obj]
  }

  /** After RemoveObject(o) no picker is linked to a non-null `o` any more, and
      exactly the pickers whose only link was `o` have left the registry. */
  lemma RemoveObjectUnlinks(reg: Registry, obj: Option<Client>)
    requires Valid(reg)
    ensures var r := RemoveObject(reg, obj);
            && (obj.Some? ==> forall p :: !IsObjectLinked(r, Some(p), obj))
            && r.Keys == reg.Keys - SoleLinkedTo(reg, obj)
            && NumberOfPickers(r) == NumberOfPickers(reg) - |SoleLinkedTo(reg, obj)|
  {
    var r := RemoveObject(reg, obj);
    var sole := SoleLinkedTo(reg, obj);
    forall p | p in r && obj.Some? ensures obj !in r[p] {
      RemoveFirstRemovesObject(reg[p], obj);
    }
    forall p | p in reg ensures p in r <==> p !in sole {
      if obj in reg[p] && |reg[p]| == 1 {
        assert reg[p] == [reg[p][0]];
      }
    }
    assert r.Keys == reg.Keys - sole;
    assert |r.Keys| == |reg.Keys| - |sole|;
  }

  /** A non-null object occurs at most once in a valid list, so removing its
      first occurrence unlinks it. */
  lemma RemoveFirstRemovesObject(cs: Clients, obj: Option<Client>)
    requires NoDuplicateObjects(cs) && obj.Some?
    ensures obj !in RemoveFirst(cs, obj)
  {
    if obj in cs {
      var k := FirstIndex(cs, obj);
      var r := RemoveFirst(cs, obj);
      forall j | 0 <= j < |r| ensures r[j] != obj {
        if j < k {
          assert r[j] == cs[j] && cs[j] in cs[..k];
        } else {
          assert r[j] == cs[j + 1];
        }
      }
    }
  }

  // ---------------------------------------------------------------------------
  // RemoveObject as written

  /** RemoveObject as the loop is written: after erasing an entry the loop
      `continue`s with the erased (invalidated) iterator, whose next comparison
      and dereference are undefined behaviour.  Any erased entry therefore
      makes the call undefined; otherwise it agrees with RemoveObject. */
  function RemoveObjectAsWritten(reg: Registry, obj: Option<Client>): (r: Outcome<Registry>)
    ensures r.Undefined? <==> exists p :: p in reg && reg[p] == [obj]
    ensures r.Defined? ==> r.value == RemoveObject(reg, obj)
  {
    if exists p :: p in reg && obj in reg[p] && |RemoveFirst(reg[p], obj)| == 0 then Undefined
    else Defined(RemoveObject(reg, obj))
  }

  /** The defect: a picker whose only link is the removed object sends the
      loop through the invalidated iterator, while the intended semantics
      simply erase that picker. */
  lemma RemoveObjectAsWrittenIsUndefined()
    ensures var reg := map[1 := [Some(7)]];
            && RemoveObjectAsWritten(reg, Some(7)).Undefined?
            && RemoveObject(reg, Some(7)) == map[]
  {
    var reg: Registry := map[1 := [Some(7)]];
    assert |RemoveFirst(reg[1], Some(7))| == 0;
  }
}

=== FILE: picking_manager.dfy ===
/**
 vtkPickingManager: the public facade composing the picker registry, the
 selection arbiter and the interaction clock.  The manager state is an
 immutable record; every public call is a function from the old state to
 the new one.  The interactor is reduced to its identity: the event
 position, FindPokedRenderer and the pickers' hit tests are supplied as a
 `Scene`, and the ModifiedEvent observer becomes the explicit UpdateTime
 step.
 */
module PickingManager {
  import opened Optional
  import PickerRegistry
  import opened PickerArbiter

  type Picker = PickerRegistry.Picker
  type Client = PickerRegistry.Client

  /** A render window interactor, identified by its address. */
  type Interactor = nat

  datatype Manager = Manager(
    pickers: PickerRegistry.Registry,
    interactor: Option<Interactor>,
    enabled: bool,
    optimizeOnInteractorEvents: bool,
    currentInteractionTime: nat,   // stamped on every ModifiedEvent of the interactor
    lastPickingTime: nat,          // the interaction time of the last arbitration
    lastSelectedPicker: Option<Picker>)

  /** What the interactor and the pickers report for the current event:
      whether FindPokedRenderer found a renderer under the event position,
      and each picker's hit test against it. */
  datatype Scene = Scene(hasRenderer: bool, hit: HitTest)

  /** The result of SelectPicker: the new manager (with its cache), the
      selected picker and the pickers whose hit test ran. */
  datatype Selected = Selected(manager: Manager, picker: Option<Picker>, invoked: seq<Picker>)

  /** The result of a Pick overload. */
  datatype Picked = Picked(manager: Manager, picked: bool, invoked: seq<Picker>)

  /** The manager invariant: a valid registry, and the last picking time was
      taken from the interaction clock, which never goes back. */
  ghost predicate Consistent(m: Manager)
  {
    PickerRegistry.Valid(m.pickers) && m.lastPickingTime <= m.currentInteractionTime
  }

  /** The constructor: no picker, no interactor, enabled, optimisation on,
      and both time stamps equal (a default vtkTimeStamp reads 0). */
  function New(): (m: Manager)
    ensures Consistent(m)
    ensures |m.pickers| == 0 && m.interactor.None? && m.lastSelectedPicker.None?
    ensures m.enabled && m.optimizeOnInteractorEvents
    ensures m.currentInteractionTime == m.lastPickingTime
  {
    Manager(PickerRegistry.Empty(), None, true, true, 0, 0, None)
  }

  // ---------------------------------------------------------------------------
  // Interaction clock and configuration

  /** UpdateTime, run by the observer on each ModifiedEvent of the interactor:
      the current interaction time moves strictly forward.  Without an
      interactor no observer is attached and nothing happens. */
  function UpdateTime(m: Manager): (r: Manager)
    ensures m.interactor.None? ==> r == m
    ensures m.interactor.Some? ==>
              && r.currentInteractionTime > m.currentInteractionTime
              && r == m.(currentInteractionTime := r.currentInteractionTime)
    ensures Consistent(m) ==> Consistent(r)
  {
    if m.interactor.None? then m
    else m.(currentInteractionTime := m.currentInteractionTime + 1)
  }

  /** SetInteractor: rebinding to the current interactor changes nothing;
      otherwise only the interactor changes (the observer moves with it). */
  function SetInteractor(m: Manager, iren: Option<Interactor>): (r: Manager)
    ensures iren == m.interactor ==> r == m
    ensures r.interactor == iren
    ensures r.(interactor := m.interactor) == m
  {
    if iren == m.interactor then m else m.(interactor := iren)
  }

  /** SetOptimizeOnInteractorEvents: ignored while no interactor is set. */
  function SetOptimizeOnInteractorEvents(m: Manager, optimize: bool): (r: Manager)
    ensures m.interactor.None? ==> r == m
    ensures m.interactor.Some? ==> r.optimizeOnInteractorEvents == optimize
    ensures r.(optimizeOnInteractorEvents := m.optimizeOnInteractorEvents) == m
  {
    if m.optimizeOnInteractorEvents == optimize || m.interactor.None? then m
    else m.(optimizeOnInteractorEvents := optimize)
  }

  /** SetEnabled: a plain flag; no other field changes. */
  function SetEnabled(m: Manager, enabled: bool): (r: Manager)
    ensures r.enabled == enabled
    ensures r.(enabled := m.enabled) == m
  {
    m.(enabled := enabled)
  }

  // ---------------------------------------------------------------------------
  // Registration

  /** AddPicker on the manager's registry: nothing but the registry changes;
      a non-null picker is registered afterwards and keeps every link it had,
      and a non-null object is then linked with it. */
  function AddPicker(m: Manager, picker: Option<Picker>, obj: Option<Client>): (r: Manager)
    ensures r.(pickers := m.pickers) == m
    ensures picker.None? ==> r == m
    ensures picker.Some? ==> GetNumberOfObjectsLinked(r, picker) >= 1
                             && GetNumberOfObjectsLinked(r, picker) >= GetNumberOfObjectsLinked(m, picker)
    ensures picker.Some? && obj.Some? ==> PickerRegistry.IsObjectLinked(r.pickers, picker, obj)
    ensures forall q, o | PickerRegistry.IsObjectLinked(m.pickers, q, o) :: PickerRegistry.IsObjectLinked(r.pickers, q, o)
    ensures Consistent(m) ==> Consistent(r)
  {
    m.(pickers := PickerRegistry.AddPicker(m.pickers, picker, obj))
  }

  /** RemovePicker on the manager's registry: nothing but the registry
      changes, no picker is added, and the picker loses exactly one link when
      `obj` was linked with it (none otherwise).  In a consistent manager a
      non-null object is no longer linked with the picker. */
  function RemovePicker(m: Manager, picker: Option<Picker>, obj: Option<Client>): (r: Manager)
    ensures r.(pickers := m.pickers) == m
    ensures r.pickers.Keys <= m.pickers.Keys
    ensures GetNumberOfObjectsLinked(r, picker)
            == GetNumberOfObjectsLinked(m, picker) - (if PickerRegistry.IsRegisteredWith(m.pickers, picker, obj) then 1 else 0)
    ensures Consistent(m) && obj.Some? ==> !PickerRegistry.IsObjectLinked(r.pickers, picker, obj)
    ensures Consistent(m) ==> Consistent(r)
  {
    var r := m.(pickers := PickerRegistry.RemovePicker(m.pickers, picker, obj));
    assert Consistent(m) && obj.Some? ==> !PickerRegistry.IsObjectLinked(r.pickers, picker, obj) by {
      if Consistent(m) && obj.Some? && PickerRegistry.IsRegisteredWith(m.pickers, picker, obj) {
        PickerRegistry.RemoveFirstRemovesObject(m.pickers[picker.value], obj);
      }
    }
    r
  }

  /** RemoveObject on the manager's registry: nothing but the registry
      changes, no picker is added, and in a consistent manager a non-null
      object is linked with no picker afterwards. */
  function RemoveObject(m: Manager, obj: Option<Client>): (r: Manager)
    ensures r.(pickers := m.pickers) == m
    ensures r.pickers.Keys <= m.pickers.Keys
    ensures Consistent(m) && obj.Some? ==> forall p :: !PickerRegistry.IsObjectLinked(r.pickers, Some(p), obj)
    ensures Consistent(m) ==> Consistent(r)
  {
    var r := m.(pickers := PickerRegistry.RemoveObject(m.pickers, obj));
    assert Consistent(m) && obj.Some? ==> forall p :: !PickerRegistry.IsObjectLinked(r.pickers, Some(p), obj) by {
      if Consistent(m) {
        PickerRegistry.RemoveObjectUnlinks(m.pickers, obj);
      }
    }
    r
  }

  // ---------------------------------------------------------------------------
  // Selection

  /** The cached selection is still valid: optimisation is on and no
      interaction happened since the last arbitration. */
  predicate IsCacheHit(m: Manager)
  {
    m.interactor.Some? && m.optimizeOnInteractorEvents
    && m.currentInteractionTime == m.lastPickingTime
  }

  /** SelectPicker: null without an interactor; the cached picker, without
      running any picker, while the cache is valid; otherwise a fresh
      arbitration whose result (even null) is cached and stamped with the
      current interaction time. */
  function SelectPicker(m: Manager, scene: Scene): (r: Selected)
    ensures r.manager == m.(lastSelectedPicker := r.manager.lastSelectedPicker,
                            lastPickingTime := r.manager.lastPickingTime)
    ensures m.interactor.None? ==> r == Selected(m, None, [])
    ensures IsCacheHit(m) ==> r == Selected(m, m.lastSelectedPicker, [])
    ensures m.interactor.Some? && !IsCacheHit(m) ==>
              && r.manager.lastSelectedPicker == r.picker
              && r.manager.lastPickingTime == m.currentInteractionTime
              && (scene.hasRenderer ==> Increasing(r.invoked)
                                        && forall p :: p in r.invoked <==> p in m.pickers)
              && (!scene.hasRenderer ==> r.invoked == [])
              && (r.picker.Some? <==> scene.hasRenderer && exists p :: p in m.pickers && scene.hit(p).Some?)
              && (r.picker.Some? ==> IsClosestHit(m.pickers.Keys, scene.hit, r.picker.value))
    ensures Consistent(m) ==> Consistent(r.manager)
  {
    if m.interactor.None? then Selected(m, None, [])
    else if IsCacheHit(m) then Selected(m, m.lastSelectedPicker, [])
    else
      var s := ComputePickerSelection(m.pickers, scene.hasRenderer, scene.hit);
      Selected(m.(lastSelectedPicker := s.winner, lastPickingTime := m.currentInteractionTime),
               s.winner, s.invoked)
  }

  /** Pick(picker): whether `picker` is the selected one; a null picker is
      picked exactly when nothing is selected. */
  function PickPicker(m: Manager, scene: Scene, picker: Option<Picker>): (r: Picked)
    ensures var s := SelectPicker(m, scene);
            r == Picked(s.manager, picker == s.picker, s.invoked)
    ensures picker.None? ==> (r.picked <==> SelectPicker(m, scene).picker.None?)
    ensures m.interactor.None? ==> r.manager == m && (r.picked <==> picker.None?)
    ensures m.interactor.Some? && !IsCacheHit(m) && scene.hasRenderer && picker.Some? ==>
              (r.picked <==> IsClosestHit(m.pickers.Keys, scene.hit, picker.value))
  {
    var s := SelectPicker(m, scene);
    assert m.interactor.Some? && !IsCacheHit(m) && scene.hasRenderer && picker.Some? && IsClosestHit(m.pickers.Keys, scene.hit, picker.value)
           ==> s.picker == picker by {
      if m.interactor.Some? && !IsCacheHit(m) && scene.hasRenderer && picker.Some? && IsClosestHit(m.pickers.Keys, scene.hit, picker.value) {
        assert s.picker.Some?;
        ClosestHitIsUnique(m.pickers.Keys, scene.hit, picker.value, s.picker.value);
      }
    }
    Picked(s.manager, picker == s.picker, s.invoked)
  }

  /** Pick(object): a picker is selected and `obj` is linked with it; never
      true for a null object. */
  function PickObject(m: Manager, scene: Scene, obj: Option<Client>): (r: Picked)
    ensures var s := SelectPicker(m, scene);
            && r.manager == s.manager && r.invoked == s.invoked
            && (r.picked <==> s.picker.Some? && obj.Some? && s.picker.value in m.pickers
                              && obj in m.pickers[s.picker.value])
    ensures obj.None? ==> !r.picked
  {
    var s := SelectPicker(m, scene);
    if s.picker.None? then Picked(s.manager, false, s.invoked)
    else Picked(s.manager, PickerRegistry.IsObjectLinked(m.pickers, s.picker, obj), s.invoked)
  }

  /** Pick(picker, object): false, without any selection, unless `obj` is
      linked with `picker`; otherwise Pick(picker). */
  function PickPickerObject(m: Manager, scene: Scene, picker: Option<Picker>, obj: Option<Client>): (r: Picked)
    ensures !PickerRegistry.IsObjectLinked(m.pickers, picker, obj) ==> r == Picked(m, false, [])
    ensures PickerRegistry.IsObjectLinked(m.pickers, picker, obj) ==> r == PickPicker(m, scene, picker)
    ensures picker.None? || obj.None? ==> !r.picked && r.invoked == []
  {
    if !PickerRegistry.IsObjectLinked(m.pickers, picker, obj) then Picked(m, false, [])
    else PickPicker(m, scene, picker)
  }

  /** GetNumberOfPickers: the size of the registry; adding a new picker
      raises it by one. */
  function GetNumberOfPickers(m: Manager): (n: nat)
    ensures n == |m.pickers.Keys|
    ensures forall p | p !in m.pickers :: |AddPicker(m, Some(p), None).pickers.Keys| == n + 1
  {
    PickerRegistry.NumberOfPickers(m.pickers)
  }

  /** GetNumberOfObjectsLinked: 0 for a null or unregistered picker,
      otherwise the length of its list, null links included; at least one for
      a picker some non-null object is linked with. */
  function GetNumberOfObjectsLinked(m: Manager, picker: Option<Picker>): (n: nat)
    ensures picker.None? || picker.value !in m.pickers ==> n == 0
    ensures picker.Some? && picker.value in m.pickers ==> n == |m.pickers[picker.value]|
    ensures forall o | PickerRegistry.IsObjectLinked(m.pickers, picker, o) :: n >= 1
  {
    PickerRegistry.NumberOfObjectsLinked(m.pickers, picker)
  }
}

=== FILE: picking_properties.dfy ===
/**
 Properties of the picking manager that relate several calls: the caching
 guarantee, the initial cached selection, closest-hit arbitration with its
 tie-break, and the advisory Enabled flag.
 */
module PickingProperties {
  import opened Optional
  import PickerRegistry
  import opened PickerArbiter
  import opened PickingManager

  /** With optimisation on, a second selection without an intervening
      interaction runs no picker and returns the first selection; the first
      runs each registered picker at most once. */
  lemma CachedSelectionRunsNoPicker(m: Manager, first: Scene, second: Scene)
    requires Consistent(m) && m.interactor.Some? && m.optimizeOnInteractorEvents
    ensures var s1 := SelectPicker(m, first);
            var s2 := SelectPicker(s1.manager, second);
            && Increasing(s1.invoked)
            && (forall p | p in s1.invoked :: p in m.pickers)
            && s2.invoked == []
            && s2.picker == s1.picker
  {
  }

  /** The same guarantee through the public calls: Pick(object) followed by
      Pick(picker) with no interaction in between runs the hit tests once. */
  lemma TwoPicksRunEachPickerOnce(m: Manager, first: Scene, second: Scene,
                                  obj: Option<Client>, picker: Option<Picker>)
    requires Consistent(m) && m.interactor.Some? && m.optimizeOnInteractorEvents
    ensures var r1 := PickObject(m, first, obj);
            var r2 := PickPicker(r1.manager, second, picker);
            && Increasing(r1.invoked)
            && r2.invoked == []
  {
    var s1 := SelectPicker(m, first);
    CachedSelectionRunsNoPicker(m, first, second);
    assert PickObject(m, first, obj).manager == s1.manager;
  }

  /** An interaction event invalidates the cache: the next selection runs
      every registered picker again when a renderer is under the event. */
  lemma InteractionForcesArbitration(m: Manager, scene: Scene)
    requires Consistent(m) && m.interactor.Some? && scene.hasRenderer
    ensures var s := SelectPicker(UpdateTime(m), scene);
            forall p :: p in s.invoked <==> p in m.pickers
  {
  }

  /** Both time stamps start equal, so once an interactor is set the first
      selection before any interaction returns the cached null without
      running a picker, even over a picker that would hit. */
  lemma CachedNullBeforeFirstInteraction(p: Picker, obj: Option<Client>, iren: Interactor, scene: Scene)
    ensures var m := SetInteractor(AddPicker(New(), Some(p), obj), Some(iren));
            SelectPicker(m, scene) == Selected(m, None, [])
  {
  }

  /** The constructor turns optimisation on, and it cannot be turned off
      before an interactor is set. */
  lemma OptimisationOnByDefault(optimize: bool)
    ensures New().optimizeOnInteractorEvents
    ensures SetOptimizeOnInteractorEvents(New(), optimize).optimizeOnInteractorEvents
  {
  }

  /** The Enabled flag is advisory: none of the Pick overloads reads it. */
  lemma EnabledIsAdvisory(m: Manager, scene: Scene, enabled: bool,
                          picker: Option<Picker>, obj: Option<Client>)
    ensures var d := SetEnabled(m, enabled);
            && PickPicker(d, scene, picker).picked == PickPicker(m, scene, picker).picked
            && PickObject(d, scene, obj).picked == PickObject(m, scene, obj).picked
            && PickPickerObject(d, scene, picker, obj).picked == PickPickerObject(m, scene, picker, obj).picked
  {
    var d := SetEnabled(m, enabled);
    SelectPickerIgnoresEnabled(m, scene, enabled);
    assert PickPicker(d, scene, picker).picked == PickPicker(m, scene, picker).picked;
    assert PickObject(d, scene, obj).picked == PickObject(m, scene, obj).picked;
    assert PickerRegistry.IsObjectLinked(d.pickers, picker, obj) == PickerRegistry.IsObjectLinked(m.pickers, picker, obj);
  }

  /** Selection neither reads nor writes the Enabled flag. */
  lemma SelectPickerIgnoresEnabled(m: Manager, scene: Scene, enabled: bool)
    ensures var a, b := SelectPicker(SetEnabled(m, enabled), scene), SelectPicker(m, scene);
            a.picker == b.picker && a.invoked == b.invoked && a.manager == SetEnabled(b.manager, enabled)
  {
  }

  /** Two pickers that hit at the same squared distance: the lower address,
      met first by the map iteration, wins. */
  lemma TieGoesToLowerAddress(reg: PickerRegistry.Registry, a: Picker, b: Picker, d: real)
    requires reg.Keys == {a, b} && a < b
    ensures var hit := (p: Picker) => if p == a || p == b then Some(d) else None;
            ComputePickerSelection(reg, true, hit).winner == Some(a)
  {
    var hit := (p: Picker) => if p == a || p == b then Some(d) else None;
    var w := ComputePickerSelection(reg, true, hit).winner;
    assert hit(a).Some?;
    assert IsClosestHit(reg.Keys, hit, a);
    ClosestHitIsUnique(reg.Keys, hit, a, w.value);
  }

  /** A manager ready for the scenarios below: pickers 1 and 2, an
      interactor, optimisation on, and a pending interaction. */
  ghost predicate TwoPickerSetting(m: Manager)
  {
    Consistent(m) && m.pickers.Keys == {1, 2} && m.interactor.Some?
    && m.optimizeOnInteractorEvents && !IsCacheHit(m)
  }

  /** Pickers 1 and 2 both linked with object 100, after one interaction. */
  function TwoPickerManager(): (m: Manager)
    ensures TwoPickerSetting(m)
    ensures m.pickers == map[1 := [Some(100)], 2 := [Some(100)]]
  {
    UpdateTime(SetInteractor(AddPicker(AddPicker(New(), Some(1), Some(100)), Some(2), Some(100)), Some(0)))
  }

  /** Closest hit wins: picker 1 hits at squared distance 10, picker 2 at 3.
      Pick(picker 1) is false after running both pickers in address order,
      and a following Pick(picker 2) is true from the cache without running
      any picker. */
  lemma ClosestHitWins(m: Manager)
    requires TwoPickerSetting(m)
    ensures var scene := Scene(true, (p: Picker) => if p == 1 then Some(10.0) else if p == 2 then Some(3.0) else None);
            var r1 := PickPicker(m, scene, Some(1));
            var r2 := PickPicker(r1.manager, scene, Some(2));
            && !r1.picked
            && Increasing(r1.invoked) && (forall p :: p in r1.invoked <==> p == 1 || p == 2)
            && r2.picked && r2.invoked == []
  {
    var hit := (p: Picker) => if p == 1 then Some(10.0) else if p == 2 then Some(3.0) else None;
    var s := SelectPicker(m, Scene(true, hit));
    assert IsClosestHit(m.pickers.Keys, hit, 2);
    ClosestHitIsUnique(m.pickers.Keys, hit, 2, s.picker.value);
  }

  /** Pick(object) is true for the object linked with the winning picker and
      false for an object that no picker is linked with. */
  lemma PickObjectOnlyForLinkedObject(m: Manager)
    requires TwoPickerSetting(m) && m.pickers[1] == [Some(100)]
    ensures var scene := Scene(true, (p: Picker) => if p == 1 then Some(5.0) else None);
            var r1 := PickObject(m, scene, Some(100));
            var r2 := PickObject(r1.manager, scene, Some(200));
            r1.picked && !r2.picked
  {
    var hit := (p: Picker) => if p == 1 then Some(5.0) else None;
    var s := SelectPicker(m, Scene(true, hit));
    assert IsClosestHit(m.pickers.Keys, hit, 1);
    ClosestHitIsUnique(m.pickers.Keys, hit, 1, s.picker.value);
  }

  /** The cache is keyed on the interaction time alone: a picker removed
      between two picks, with no interaction in between, is still reported
      as picked. */
  lemma CacheOutlivesRemoval(m: Manager)
    requires TwoPickerSetting(m) && m.pickers[2] == [Some(100)]
    ensures var scene := Scene(true, (p: Picker) => if p == 2 then Some(1.0) else None);
            var r1 := PickPicker(m, scene, Some(2));
            var m' := RemovePicker(r1.manager, Some(2), Some(100));
            && r1.picked
            && GetNumberOfObjectsLinked(m', Some(2)) == 0
            && PickPicker(m', scene, Some(2)).picked
  {
    var hit := (p: Picker) => if p == 2 then Some(1.0) else None;
    var s := SelectPicker(m, Scene(true, hit));
    assert IsClosestHit(m.pickers.Keys, hit, 2);
    ClosestHitIsUnique(m.pickers.Keys, hit, 2, s.picker.value);
  }

  /** A picker added without an object counts one (null) linked object. */
  lemma NullLinkIsCounted(p: Picker)
    ensures GetNumberOfObjectsLinked(AddPicker(New(), Some(p), None), Some(p)) == 1
    ensures GetNumberOfPickers(AddPicker(New(), Some(p), None)) == 1
  {
  }
}

=== FILE: pixel_formats.dfy ===
/**
 The byte-level pixel encodings of the Starbase render window
 (vlSbrRenderWindow::GetPixelData / SetPixelData): the 3:3:2 packing of an
 8-plane frame buffer, the nibble duplication of a 12-plane frame buffer,
 and the normalisation of the requested rectangle.
 */
module PixelFormats {

  /** An `unsigned char`. */
  type Byte = bv8

  /** The `int` an `unsigned char` operand is promoted to before arithmetic;
      every value computed here stays far below 2^31, so 32 bits model it. */
  type Promoted = bv32

  function Promote(b: Byte): Promoted
  {
    b as Promoted
  }

  // ---------------------------------------------------------------------------
  // 3:3:2 packing

  /** RGB_TO_332 as evaluated in `int`: the top three bits of red, the top
      three of green and the top two of blue, summed into disjoint fields. */
  function Pack332Promoted(r: Byte, g: Byte, b: Byte): (v: Promoted)
    ensures v < 256
    ensures v & 0xe0 == Promote(r) & 0xe0
    ensures v & 0x1c == (Promote(g) >> 3) & 0x1c
    ensures v & 0x03 == (Promote(b) >> 6) & 0x03
  {
    (Promote(r) & 0xe0) + ((Promote(g) >> 3) & 0x1c) + ((Promote(b) >> 6) & 0x03)
  }

  /** RGB_TO_332 stored into the `unsigned char` of the row buffer. */
  function Pack332(r: Byte, g: Byte, b: Byte): (p: Byte)
    ensures Promote(p) == Pack332Promoted(r, g, b)
  {
    Pack332Promoted(r, g, b) as Byte
  }

  /** RED_FROM_332: the red field, in the top three bits. */
  function Red332(p: Byte): (r: Byte)
    ensures r & 0x1f == 0
    ensures r >> 5 == (p >> 5) & 0x07
  {
    p & 0xe0
  }

  /** GREEN_FROM_332: the green field shifted to the top three bits (the
      shift is done in `int`; the result always fits a byte). */
  function Green332(p: Byte): (g: Byte)
    ensures g & 0x1f == 0
    ensures g >> 5 == (p >> 2) & 0x07
  {
    var v := (Promote(p) & 0x1c) << 3;
    assert v < 256;
    v as Byte
  }

  /** BLUE_FROM_332: the blue field shifted to the top two bits. */
  function Blue332(p: Byte): (b: Byte)
    ensures b & 0x3f == 0
    ensures b >> 6 == p & 0x03
  {
    var v := (Promote(p) & 0x03) << 6;
    assert v < 256;
    v as Byte
  }

  /** Every packed byte is the packing of its own decoded channels. */
  lemma Unpack332ThenPack(p: Byte)
    ensures Pack332(Red332(p), Green332(p), Blue332(p)) == p
  {
    assert Promote(Pack332(Red332(p), Green332(p), Blue332(p))) == Promote(p);
  }

  /** Packing keeps exactly the top 3:3:2 bits: decoding a packed pixel gives
      back each channel with its low bits cleared. */
  lemma Pack332ThenUnpack(r: Byte, g: Byte, b: Byte)
    ensures Red332(Pack332(r, g, b)) == r & 0xe0
    ensures Green332(Pack332(r, g, b)) == g & 0xe0
    ensures Blue332(Pack332(r, g, b)) == b & 0xc0
  {
  }

  /** RGB_TO_332 depends only on the top 3 bits of red and green and the top
      2 bits of blue. */
  lemma Pack332UsesTopBits(r: Byte, g: Byte, b: Byte)
    ensures Pack332(r, g, b) == Pack332(r & 0xe0, g & 0xe0, b & 0xc0)
  {
    assert Promote(Pack332(r, g, b)) == Promote(Pack332(r & 0xe0, g & 0xe0, b & 0xc0));
  }

  // ---------------------------------------------------------------------------
  // 12-plane nibble duplication

  /** The 12-plane read conversion when the window's `Buffer` flag is set: the
      high nibble is copied into the low nibble. */
  function ReadNibbleHigh(x: Byte): (y: Byte)
    ensures y & 0xf0 == x & 0xf0
    ensures y >> 4 == y & 0x0f
  {
    (x & 0xf0) | ((x & 0xf0) >> 4)
  }

  /** The 12-plane read conversion otherwise: the low nibble is copied into
      the high nibble. */
  function ReadNibbleLow(x: Byte): (y: Byte)
    ensures y & 0x0f == x & 0x0f
    ensures y >> 4 == y & 0x0f
  {
    ((x & 0x0f) << 4) | (x & 0x0f)
  }

  /** The read conversion chosen by the window's `Buffer` flag. */
  function ReadNibble(buffer: bool, x: Byte): (y: Byte)
    ensures y >> 4 == y & 0x0f
    ensures buffer ==> y & 0xf0 == x & 0xf0
    ensures !buffer ==> y & 0x0f == x & 0x0f
  {
    if buffer then ReadNibbleHigh(x) else ReadNibbleLow(x)
  }

  /** The 12-plane write conversion: keep the high nibble and duplicate it
      into the low nibble. */
  function WriteNibble(x: Byte): (y: Byte)
    ensures y & 0xf0 == x & 0xf0
    ensures y & 0x0f == x >> 4
  {
    (x & 0xf0) | (x >> 4)
  }

  /** The write conversion is idempotent, and a written byte read back whole
      through either read conversion is unchanged. This is a fact about the
      three conversions on one byte; it does not say which half of the actual
      frame buffer Starbase modifies on a 12-plane write. */
  lemma WriteNibbleIsStable(x: Byte)
    ensures WriteNibble(WriteNibble(x)) == WriteNibble(x)
    ensures ReadNibbleHigh(WriteNibble(x)) == WriteNibble(x)
    ensures ReadNibbleLow(WriteNibble(x)) == WriteNibble(x)
  {
  }

  // ---------------------------------------------------------------------------
  // Rectangle normalisation

  function Abs(n: int): nat
  {
    if n < 0 then -n else n
  }

  /** The low and high coordinate of one side of the rectangle. */
  datatype Span = Span(low: int, high: int)

  /** The `x_low`/`x_hi` (and `y_low`/`y_hi`) ordering of two corners: the
      span covers both corners, and its length is the row length
      `abs(x2 - x1) + 1` used to size the row buffers. */
  function Normalize(a: int, b: int): (s: Span)
    ensures s.low <= s.high
    ensures s.high - s.low == Abs(b - a)
    ensures (s.low == a && s.high == b) || (s.low == b && s.high == a)
  {
    if a < b then Span(a, b) else Span(b, a)
  }

  /** The corners may be given in either order. */
  lemma NormalizeIsSymmetric(a: int, b: int)
    ensures Normalize(a, b) == Normalize(b, a)
  {
  }

  /** The number of pixels along one side. */
  function Extent(s: Span): nat
  {
    if s.high < s.low then 0 else s.high - s.low + 1
  }

  /** The size of the buffer GetPixelData allocates: three bytes per pixel of
      the `(abs(x2 - x1) + 1) * (abs(y2 - y1) + 1)` rectangle. */
  function PixelBufferSize(x1: int, y1: int, x2: int, y2: int): (n: nat)
    ensures n == 3 * Extent(Normalize(x1, x2)) * Extent(Normalize(y1, y2))
    ensures n > 0
  {
    var a, b := Abs(x2 - x1) + 1, Abs(y2 - y1) + 1;
    assert Extent(Normalize(x1, x2)) == a && Extent(Normalize(y1, y2)) == b;
    ProductIsPositive(a, b);
    a * b * 3
  }

  lemma ProductIsPositive(a: int, b: int)
    requires a >= 1 && b >= 1
    ensures a * b >= 1 && 3 * a * b == a * b * 3
  {
    assert a * b >= 1 * b;
  }
}

=== FILE: pixel_transfer.dfy ===
/**
 Reading and writing a rectangle of pixels on the Starbase frame buffer
 (vlSbrRenderWindow::GetPixelData and SetPixelData).  The frame buffer is a
 total function from (bank, x, y) to a byte; bank 2 holds red, bank 1 green
 and bank 0 blue, and an 8-plane frame buffer has its single bank at 0.
 SetPixelData is modelled by the block writes it issues, in order, and the
 frame buffer they act on by a `Screen`: its initial contents and the writes
 applied since.
 */
module PixelTransfer {
  import opened Optional
  import opened PixelFormats

  type FrameBuffer = (nat, int, int) -> Byte

  const RedBank: nat := 2
  const GreenBank: nat := 1
  const BlueBank: nat := 0

  /** The conversion the window's plane count selects; the 6|6|6 shared
      colormap format of an 8-plane window is not part of this model. */
  datatype Format = Rgb24 | Nibble12 | Packed332

  /** The format used for `NumPlanes` and the SB_X_SHARED_CMAP setting; no
      conversion runs (the buffer is left unfilled) for other plane counts. */
  function FormatOf(numPlanes: int, sharedColormap: bool): (f: Option<Format>)
    ensures f == Some(Rgb24) <==> numPlanes == 24
    ensures f == Some(Nibble12) <==> numPlanes == 12
    ensures f == Some(Packed332) <==> numPlanes == 8 && !sharedColormap
  {
    if numPlanes == 24 then Some(Rgb24)
    else if numPlanes == 12 then Some(Nibble12)
    else if numPlanes == 8 && !sharedColormap then Some(Packed332)
    else None
  }

  // ---------------------------------------------------------------------------
  // Channel interleaving

  /** The red, green and blue bytes of a row, one sequence per bank. */
  datatype Channels = Channels(red: seq<Byte>, green: seq<Byte>, blue: seq<Byte>)

  /** The row loop of GetPixelData: one RGB triple per pixel. */
  function Interleave(c: Channels): (d: seq<Byte>)
    requires |c.red| == |c.green| == |c.blue|
    ensures |d| == 3 * |c.red|
  {
    seq(3 * |c.red|, j requires 0 <= j < 3 * |c.red| =>
      if j % 3 == 0 then c.red[j / 3] else if j % 3 == 1 then c.green[j / 3] else c.blue[j / 3])
  }

  /** The layout of an interleaved row: pixel `i`'s red, green and blue bytes
      sit at positions 3i, 3i+1 and 3i+2. */
  lemma InterleaveLayout(c: Channels)
    requires |c.red| == |c.green| == |c.blue|
    ensures var d := Interleave(c);
            forall i | 0 <= i < |c.red| :: d[3 * i] == c.red[i] && d[3 * i + 1] == c.green[i] && d[3 * i + 2] == c.blue[i]
  {
    var d := Interleave(c);
    forall i | 0 <= i < |c.red|
      ensures d[3 * i] == c.red[i] && d[3 * i + 1] == c.green[i] && d[3 * i + 2] == c.blue[i]
    {
      assert (3 * i) / 3 == i && (3 * i + 1) / 3 == i && (3 * i + 2) / 3 == i;
      assert (3 * i) % 3 == 0 && (3 * i + 1) % 3 == 1 && (3 * i + 2) % 3 == 2;
    }
  }

  /** The row loop of SetPixelData: split RGB triples into three bank rows. */
  function Deinterleave(d: seq<Byte>): (c: Channels)
    requires |d| % 3 == 0
    ensures |c.red| == |c.green| == |c.blue| == |d| / 3
  {
    var n := |d| / 3;
    Channels(seq(n, i requires 0 <= i < n => d[3 * i]),
             seq(n, i requires 0 <= i < n => d[3 * i + 1]),
             seq(n, i requires 0 <= i < n => d[3 * i + 2]))
  }

  /** The layout a de-interleaved row is read from: pixel `i` takes bytes
      3i, 3i+1 and 3i+2 as red, green and blue. */
  lemma DeinterleaveLayout(d: seq<Byte>)
    requires |d| % 3 == 0
    ensures var c := Deinterleave(d);
            forall i | 0 <= i < |d| / 3 :: c.red[i] == d[3 * i] && c.green[i] == d[3 * i + 1] && c.blue[i] == d[3 * i + 2]
  {
  }

  /** Re-interleaving what was de-interleaved restores the data. */
  lemma InterleaveDeinterleave(d: seq<Byte>)
    requires |d| % 3 == 0
    ensures Interleave(Deinterleave(d)) == d
  {
    var c := Deinterleave(d);
    var r := Interleave(c);
    forall j | 0 <= j < |d| ensures r[j] == d[j] {
      var i, t := j / 3, j % 3;
      assert j == 3 * i + t && i < |d| / 3;
    }
  }

  /** De-interleaving what was interleaved restores the channels. */
  lemma DeinterleaveInterleave(c: Channels)
    requires |c.red| == |c.green| == |c.blue|
    ensures Deinterleave(Interleave(c)) == c
  {
    var d := Interleave(c);
    var c' := Deinterleave(d);
    forall i | 0 <= i < |c.red|
      ensures c'.red[i] == c.red[i] && c'.green[i] == c.green[i] && c'.blue[i] == c.blue[i]
    {
      assert (3 * i) / 3 == i && (3 * i + 1) / 3 == i && (3 * i + 2) / 3 == i;
    }
  }

  function MapBytes(f: Byte -> Byte, s: seq<Byte>): (r: seq<Byte>)
    ensures |r| == |s|
  {
    seq(|s|, i requires 0 <= i < |s| => f(s[i]))
  }

  // ---------------------------------------------------------------------------
  // The frame buffer and the block writes applied to it

  /** One `dcblock_write` of a bank row. */
  datatype BlockWrite = BlockWrite(bank: nat, x: int, y: int, bytes: seq<Byte>)

  /** A frame buffer as it was initially and the block writes applied to it
      since, oldest first. */
  datatype Screen = Screen(initial: FrameBuffer, writes: seq<BlockWrite>)

  predicate Covers(w: BlockWrite, bank: nat, x: int, y: int)
  {
    w.bank == bank && w.y == y && w.x <= x < w.x + |w.bytes|
  }

  /** The byte at (bank, x, y) once the writes have been applied in order:
      the last write covering the point decides. */
  function Lookup(fb: FrameBuffer, ws: seq<BlockWrite>, bank: nat, x: int, y: int): Byte
    decreases |ws|
  {
    if ws == [] then fb(bank, x, y)
    else
      var w := ws[|ws| - 1];
      if Covers(w, bank, x, y) then w.bytes[x - w.x] else Lookup(fb, ws[..|ws| - 1], bank, x, y)
  }

  function Pixel(s: Screen, bank: nat, x: int, y: int): Byte
  {
    Lookup(s.initial, s.writes, bank, x, y)
  }

  /** The screen after further block writes. */
  function Apply(s: Screen, ws: seq<BlockWrite>): Screen
  {
    Screen(s.initial, s.writes + ws)
  }

  /** Applying one more write: it decides the points it covers. */
  lemma LookupLast(fb: FrameBuffer, ws: seq<BlockWrite>, w: BlockWrite, bank: nat, x: int, y: int)
    ensures Lookup(fb, ws + [w], bank, x, y)
            == if Covers(w, bank, x, y) then w.bytes[x - w.x] else Lookup(fb, ws, bank, x, y)
  {
    assert (ws + [w])[..|ws|] == ws;
  }

  /** Writes that do not cover a point leave it as the earlier writes left it. */
  lemma {:induction false} LookupMiss(fb: FrameBuffer, ws1: seq<BlockWrite>, ws2: seq<BlockWrite>, bank: nat, x: int, y: int)
    requires forall k | 0 <= k < |ws2| :: !Covers(ws2[k], bank, x, y)
    ensures Lookup(fb, ws1 + ws2, bank, x, y) == Lookup(fb, ws1, bank, x, y)
    decreases |ws2|
  {
    if ws2 == [] {
      assert ws1 + ws2 == ws1;
    } else {
      var init, last := ws2[..|ws2| - 1], ws2[|ws2| - 1];
      assert ws1 + ws2 == (ws1 + init) + [last];
      LookupLast(fb, ws1 + init, last, bank, x, y);
      LookupMiss(fb, ws1, init, bank, x, y);
    }
  }

  /** Applying writes in two batches is applying them in one. */
  lemma ApplyTwice(s: Screen, ws1: seq<BlockWrite>, ws2: seq<BlockWrite>)
    ensures Apply(Apply(s, ws1), ws2) == Apply(s, ws1 + ws2)
  {
    assert s.writes + ws1 + ws2 == s.writes + (ws1 + ws2);
  }

  // ---------------------------------------------------------------------------
  // GetPixelData

  /** `dcblock_read` of `w` bytes of one bank row starting at `x`. */
  function BankRow(s: Screen, bank: nat, x: int, y: int, w: nat): (row: seq<Byte>)
    ensures |row| == w
  {
    seq(w, i requires 0 <= i < w => Pixel(s, bank, x + i, y))
  }

  /** One row of GetPixelData: the bank rows read and converted to RGB triples. */
  function ReadRow(s: Screen, fmt: Format, buffer: bool, x: int, y: int, w: nat): (row: seq<Byte>)
    ensures |row| == 3 * w
  {
    match fmt
    case Rgb24 =>
      Interleave(Channels(BankRow(s, RedBank, x, y, w), BankRow(s, GreenBank, x, y, w),
                          BankRow(s, BlueBank, x, y, w)))
    case Nibble12 =>
      var n := (v: Byte) => ReadNibble(buffer, v);
      Interleave(Channels(MapBytes(n, BankRow(s, RedBank, x, y, w)),
                          MapBytes(n, BankRow(s, GreenBank, x, y, w)),
                          MapBytes(n, BankRow(s, BlueBank, x, y, w))))
    case Packed332 =>
      var p := BankRow(s, BlueBank, x, y, w);
      Interleave(Channels(MapBytes(Red332, p), MapBytes(Green332, p), MapBytes(Blue332, p)))
  }

  /** The bytes of `rows` rows of `w` pixels, three bytes per pixel, counted
      row by row. */
  function RowsBytes(w: nat, rows: nat): nat
    decreases rows
  {
    if rows == 0 then 0 else 3 * w + RowsBytes(w, rows - 1)
  }

  lemma {:induction false} RowsBytesIsProduct(w: nat, rows: nat)
    ensures RowsBytes(w, rows) == 3 * w * rows
    decreases rows
  {
    if rows > 0 {
      RowsBytesIsProduct(w, rows - 1);
      assert 3 * w * rows == 3 * w * (rows - 1) + 3 * w;
    }
  }

  /** Rows `y .. y + rows - 1`, bottom to top, each `w` pixels wide. */
  function ReadRows(s: Screen, fmt: Format, buffer: bool, x: int, y: int, w: nat, rows: nat): (data: seq<Byte>)
    ensures |data| == RowsBytes(w, rows)
    decreases rows
  {
    if rows == 0 then []
    else ReadRow(s, fmt, buffer, x, y, w) + ReadRows(s, fmt, buffer, x, y + 1, w, rows - 1)
  }

  /** GetPixelData: the rectangle between the two corners, in whichever order
      they are given, as three bytes per pixel, rows from the lowest `y` up. */
  function GetPixelData(s: Screen, fmt: Format, buffer: bool, x1: int, y1: int, x2: int, y2: int): (data: seq<Byte>)
    ensures |data| == PixelBufferSize(x1, y1, x2, y2)
  {
    var xs, ys := Normalize(x1, x2), Normalize(y1, y2);
    RowsBytesIsProduct(Extent(xs), Extent(ys));
    ReadRows(s, fmt, buffer, xs.low, ys.low, Extent(xs), Extent(ys))
  }

  /** The corners may be given in either order. */
  lemma GetPixelDataCornerOrder(s: Screen, fmt: Format, buffer: bool, x1: int, y1: int, x2: int, y2: int)
    ensures GetPixelData(s, fmt, buffer, x1, y1, x2, y2) == GetPixelData(s, fmt, buffer, x2, y2, x1, y1)
  {
    NormalizeIsSymmetric(x1, x2);
    NormalizeIsSymmetric(y1, y2);
  }

  // ---------------------------------------------------------------------------
  // SetPixelData

  /** The block writes of one row of SetPixelData, in the order issued. */
  function RowWrites(fmt: Format, x: int, y: int, d: seq<Byte>): (ws: seq<BlockWrite>)
    requires |d| % 3 == 0
    ensures forall k | 0 <= k < |ws| :: ws[k].x == x && ws[k].y == y && |ws[k].bytes| == |d| / 3
  {
    var c := Deinterleave(d);
    match fmt
    case Rgb24 =>
      [BlockWrite(RedBank, x, y, c.red), BlockWrite(GreenBank, x, y, c.green),
       BlockWrite(BlueBank, x, y, c.blue)]
    case Nibble12 =>
      [BlockWrite(RedBank, x, y, MapBytes(WriteNibble, c.red)),
       BlockWrite(GreenBank, x, y, MapBytes(WriteNibble, c.green)),
       BlockWrite(BlueBank, x, y, MapBytes(WriteNibble, c.blue))]
    case Packed332 =>
      [BlockWrite(BlueBank, x, y, seq(|c.red|, i requires 0 <= i < |c.red| => Pack332(c.red[i], c.green[i], c.blue[i])))]
  }

  /** The block writes of rows `y .. y + rows - 1`, consuming `3 * w` bytes per row. */
  function WriteRows(fmt: Format, x: int, y: int, w: nat, rows: nat, data: seq<Byte>): (ws: seq<BlockWrite>)
    requires |data| >= RowsBytes(w, rows)
    ensures forall k | 0 <= k < |ws| :: ws[k].x == x && y <= ws[k].y < y + rows && |ws[k].bytes| == w
    decreases rows
  {
    if rows == 0 then []
    else
      RowWrites(fmt, x, y, data[..3 * w]) + WriteRows(fmt, x, y + 1, w, rows - 1, data[3 * w..])
  }

  /** SetPixelData: the block writes for the rectangle between the two
      corners, reading three bytes per pixel from `data`. */
  function SetPixelData(fmt: Format, x1: int, y1: int, x2: int, y2: int, data: seq<Byte>): (ws: seq<BlockWrite>)
    requires |data| >= PixelBufferSize(x1, y1, x2, y2)
    ensures forall k | 0 <= k < |ws| ::
              && ws[k].x == Normalize(x1, x2).low
              && Normalize(y1, y2).low <= ws[k].y <= Normalize(y1, y2).high
              && |ws[k].bytes| == Extent(Normalize(x1, x2))
  {
    var xs, ys := Normalize(x1, x2), Normalize(y1, y2);
    RowsBytesIsProduct(Extent(xs), Extent(ys));
    WriteRows(fmt, xs.low, ys.low, Extent(xs), Extent(ys), data)
  }

  /** SetPixelData writes nothing outside the rectangle. */
  lemma SetPixelDataStaysInside(s: Screen, fmt: Format, x1: int, y1: int, x2: int, y2: int, data: seq<Byte>,
                                bank: nat, x: int, y: int)
    requires |data| >= PixelBufferSize(x1, y1, x2, y2)
    requires !(Normalize(x1, x2).low <= x <= Normalize(x1, x2).high && Normalize(y1, y2).low <= y <= Normalize(y1, y2).high)
    ensures Pixel(Apply(s, SetPixelData(fmt, x1, y1, x2, y2, data)), bank, x, y) == Pixel(s, bank, x, y)
  {
    LookupMiss(s.initial, s.writes, SetPixelData(fmt, x1, y1, x2, y2, data), bank, x, y);
  }

  // ---------------------------------------------------------------------------
  // Writing and reading back

  /** What reading back returns for a byte of channel `channel` (0 red,
      1 green, 2 blue) written in format `fmt`: the byte itself on 24
      planes, its high nibble duplicated on 12 planes, and its top 3:3:2
      bits on 8 planes. */
  function Effect(fmt: Format, channel: nat, v: Byte): Byte
  {
    match fmt
    case Rgb24 => v
    case Nibble12 => WriteNibble(v)
    case Packed332 => if channel == 2 then v & 0xc0 else v & 0xe0
  }

  /** The effect of a write-then-read on a buffer of RGB triples. */
  function Transfer(fmt: Format, d: seq<Byte>): (t: seq<Byte>)
    ensures |t| == |d|
  {
    seq(|d|, j requires 0 <= j < |d| => Effect(fmt, j % 3, d[j]))
  }

  /** On 24 planes the transfer loses nothing. */
  lemma TransferRgb24IsIdentity(d: seq<Byte>)
    ensures Transfer(Rgb24, d) == d
  {
  }

  /** Transfers of whole triples compose by concatenation. */
  lemma TransferAppend(fmt: Format, a: seq<Byte>, b: seq<Byte>)
    requires |a| % 3 == 0
    ensures Transfer(fmt, a + b) == Transfer(fmt, a) + Transfer(fmt, b)
  {
    var l, r := Transfer(fmt, a + b), Transfer(fmt, a) + Transfer(fmt, b);
    forall j | 0 <= j < |a| + |b| ensures l[j] == r[j] {
      if j >= |a| {
        var k := j - |a|;
        assert j == |a| / 3 * 3 + k;
        assert j % 3 == k % 3;
        assert (a + b)[j] == b[k];
      }
    }
  }

  /** Three writes to the red, green and blue banks, in that order, after
      any earlier writes: each bank holds what its own write put there. */
  lemma LookupBanks(fb: FrameBuffer, pre: seq<BlockWrite>, ws: seq<BlockWrite>, bank: nat, px: int, py: int)
    requires |ws| == 3 && ws[0].bank == RedBank && ws[1].bank == GreenBank && ws[2].bank == BlueBank
    requires bank < 3 && Covers(ws[2 - bank], bank, px, py)
    ensures Lookup(fb, pre + ws, bank, px, py) == ws[2 - bank].bytes[px - ws[2 - bank].x]
  {
    assert pre + ws == (pre + [ws[0]] + [ws[1]]) + [ws[2]];
    LookupLast(fb, pre + [ws[0]] + [ws[1]], ws[2], bank, px, py);
    LookupLast(fb, pre + [ws[0]], ws[1], bank, px, py);
    LookupLast(fb, pre, ws[0], bank, px, py);
  }

  /** After the block writes of one 24- or 12-plane row, each bank holds its
      channel of the row data, as converted for the format. */
  lemma StoredInBanks(s: Screen, fmt: Format, x: int, y: int, d: seq<Byte>, bank: nat, i: nat)
    requires fmt != Packed332 && |d| % 3 == 0 && 0 <= i < |d| / 3 && bank < 3
    ensures Pixel(Apply(s, RowWrites(fmt, x, y, d)), bank, x + i, y) == Effect(fmt, 2 - bank, d[3 * i + 2 - bank])
  {
    LookupBanks(s.initial, s.writes, RowWrites(fmt, x, y, d), bank, x + i, y);
  }

  /** After the block write of one 8-plane row, the bank holds the packed pixels. */
  lemma StoredPacked(s: Screen, x: int, y: int, d: seq<Byte>, i: nat)
    requires |d| % 3 == 0 && 0 <= i < |d| / 3
    ensures Pixel(Apply(s, RowWrites(Packed332, x, y, d)), BlueBank, x + i, y) == Pack332(d[3 * i], d[3 * i + 1], d[3 * i + 2])
  {
    var ws := RowWrites(Packed332, x, y, d);
    assert ws == [ws[0]];
    LookupLast(s.initial, s.writes, ws[0], BlueBank, x + i, y);
  }

  /** One row written by SetPixelData and read back by GetPixelData, on 24 or 12 planes. */
  lemma RowRoundTripBanks(s: Screen, fmt: Format, buffer: bool, x: int, y: int, d: seq<Byte>)
    requires fmt != Packed332 && |d| % 3 == 0
    ensures ReadRow(Apply(s, RowWrites(fmt, x, y, d)), fmt, buffer, x, y, |d| / 3) == Transfer(fmt, d)
  {
    var w := |d| / 3;
    var row := ReadRow(Apply(s, RowWrites(fmt, x, y, d)), fmt, buffer, x, y, w);
    forall j | 0 <= j < |d| ensures row[j] == Transfer(fmt, d)[j] {
      var i, t := j / 3, j % 3;
      assert j == 3 * i + t && i < w;
      StoredInBanks(s, fmt, x, y, d, 2 - t, i);
      WriteNibbleIsStable(d[j]);
    }
  }

  /** One byte of an 8-plane row written and read back. */
  lemma PackedRoundTripAt(s: Screen, buffer: bool, x: int, y: int, d: seq<Byte>, j: nat)
    requires |d| % 3 == 0 && j < |d|
    ensures ReadRow(Apply(s, RowWrites(Packed332, x, y, d)), Packed332, buffer, x, y, |d| / 3)[j]
            == Effect(Packed332, j % 3, d[j])
  {
    var i, t := j / 3, j % 3;
    assert j == 3 * i + t && i < |d| / 3;
    StoredPacked(s, x, y, d, i);
    Pack332ThenUnpack(d[3 * i], d[3 * i + 1], d[3 * i + 2]);
  }

  /** One row written by SetPixelData and read back by GetPixelData, on 8 planes. */
  lemma RowRoundTripPacked(s: Screen, buffer: bool, x: int, y: int, d: seq<Byte>)
    requires |d| % 3 == 0
    ensures ReadRow(Apply(s, RowWrites(Packed332, x, y, d)), Packed332, buffer, x, y, |d| / 3) == Transfer(Packed332, d)
  {
    var row := ReadRow(Apply(s, RowWrites(Packed332, x, y, d)), Packed332, buffer, x, y, |d| / 3);
    forall j | 0 <= j < |d| ensures row[j] == Transfer(Packed332, d)[j] {
      PackedRoundTripAt(s, buffer, x, y, d, j);
    }
  }

  /** One row written by SetPixelData and read back by GetPixelData. */
  lemma RowRoundTrip(s: Screen, fmt: Format, buffer: bool, x: int, y: int, d: seq<Byte>)
    requires |d| % 3 == 0
    ensures ReadRow(Apply(s, RowWrites(fmt, x, y, d)), fmt, buffer, x, y, |d| / 3) == Transfer(fmt, d)
  {
    if fmt == Packed332 {
      RowRoundTripPacked(s, buffer, x, y, d);
    } else {
      RowRoundTripBanks(s, fmt, buffer, x, y, d);
    }
  }

  /** Writes confined to rows above `y` leave row `y` as it was. */
  lemma FirstRowUntouched(s: Screen, fmt: Format, buffer: bool, x: int, y: int, w: nat, rest: seq<BlockWrite>)
    requires forall k | 0 <= k < |rest| :: rest[k].y > y
    ensures ReadRow(Apply(s, rest), fmt, buffer, x, y, w) == ReadRow(s, fmt, buffer, x, y, w)
  {
    forall bank: nat | bank < 3 ensures BankRow(Apply(s, rest), bank, x, y, w) == BankRow(s, bank, x, y, w) {
      forall px | x <= px < x + w ensures Pixel(Apply(s, rest), bank, px, y) == Pixel(s, bank, px, y) {
        LookupMiss(s.initial, s.writes, rest, bank, px, y);
      }
    }
  }

  /** The induction step of RowsRoundTrip: given the round trip of the rows
      above the first, the round trip of the whole block. */
  lemma RowsRoundTripStep(s: Screen, fmt: Format, buffer: bool,
                          x: int, y: int, w: nat, rows: nat, data: seq<Byte>)
    requires rows > 0 && |data| >= RowsBytes(w, rows)
    requires
      var s1 := Apply(s, RowWrites(fmt, x, y, data[..3 * w]));
      ReadRows(Apply(s1, WriteRows(fmt, x, y + 1, w, rows - 1, data[3 * w..])), fmt, buffer, x, y + 1, w, rows - 1)
      == Transfer(fmt, data[3 * w..][..RowsBytes(w, rows - 1)])
    ensures ReadRows(Apply(s, WriteRows(fmt, x, y, w, rows, data)), fmt, buffer, x, y, w, rows)
            == Transfer(fmt, data[..RowsBytes(w, rows)])
  {
    var head, tail := data[..3 * w], data[3 * w..];
    var rw := RowWrites(fmt, x, y, head);
    var rest := WriteRows(fmt, x, y + 1, w, rows - 1, tail);
    var whole := Apply(Apply(s, rw), rest);
    assert WriteRows(fmt, x, y, w, rows, data) == rw + rest;
    ApplyTwice(s, rw, rest);
    assert ReadRows(whole, fmt, buffer, x, y, w, rows)
           == ReadRow(whole, fmt, buffer, x, y, w) + ReadRows(whole, fmt, buffer, x, y + 1, w, rows - 1);
    FirstRowRoundTrip(s, fmt, buffer, x, y, w, head, rest);
    TransferSplit(fmt, data, w, rows);
  }

  /** The first row of a block reads back what its own writes put there. */
  lemma FirstRowRoundTrip(s: Screen, fmt: Format, buffer: bool, x: int, y: int, w: nat,
                          head: seq<Byte>, rest: seq<BlockWrite>)
    requires |head| == 3 * w && forall k | 0 <= k < |rest| :: rest[k].y > y
    ensures ReadRow(Apply(Apply(s, RowWrites(fmt, x, y, head)), rest), fmt, buffer, x, y, w) == Transfer(fmt, head)
  {
    FirstRowUntouched(Apply(s, RowWrites(fmt, x, y, head)), fmt, buffer, x, y, w, rest);
    RowRoundTrip(s, fmt, buffer, x, y, head);
  }

  /** The transfer of a block is that of its first row followed by that of the rest. */
  lemma TransferSplit(fmt: Format, data: seq<Byte>, w: nat, rows: nat)
    requires rows > 0 && |data| >= RowsBytes(w, rows)
    ensures Transfer(fmt, data[..RowsBytes(w, rows)])
            == Transfer(fmt, data[..3 * w]) + Transfer(fmt, data[3 * w..][..RowsBytes(w, rows - 1)])
  {
    var m := RowsBytes(w, rows - 1);
    TransferAppend(fmt, data[..3 * w], data[3 * w..][..m]);
    assert data[..3 * w] + data[3 * w..][..m] == data[..3 * w + m];
  }

  /** A block of rows written by SetPixelData and read back by GetPixelData. */
  lemma {:induction false} RowsRoundTrip(s: Screen, fmt: Format, buffer: bool,
                                         x: int, y: int, w: nat, rows: nat, data: seq<Byte>)
    requires |data| >= RowsBytes(w, rows)
    ensures ReadRows(Apply(s, WriteRows(fmt, x, y, w, rows, data)), fmt, buffer, x, y, w, rows)
            == Transfer(fmt, data[..RowsBytes(w, rows)])
    decreases rows
  {
    if rows > 0 {
      var s1 := Apply(s, RowWrites(fmt, x, y, data[..3 * w]));
      RowsRoundTrip(s1, fmt, buffer, x, y + 1, w, rows - 1, data[3 * w..]);
      RowsRoundTripStep(s, fmt, buffer, x, y, w, rows, data);
    }
  }

  /** GetPixelData after SetPixelData over the same rectangle returns the
      data written, up to the precision of the frame buffer's format. The
      frame buffer stores whole bytes, so on 12 planes this holds for either
      `Buffer` setting. */
  lemma GetAfterSet(s: Screen, fmt: Format, buffer: bool, x1: int, y1: int, x2: int, y2: int, data: seq<Byte>)
    requires |data| >= PixelBufferSize(x1, y1, x2, y2)
    ensures GetPixelData(Apply(s, SetPixelData(fmt, x1, y1, x2, y2, data)), fmt, buffer, x1, y1, x2, y2)
            == Transfer(fmt, data[..PixelBufferSize(x1, y1, x2, y2)])
  {
    var xs, ys := Normalize(x1, x2), Normalize(y1, y2);
    RowsBytesIsProduct(Extent(xs), Extent(ys));
    RowsRoundTrip(s, fmt, buffer, xs.low, ys.low, Extent(xs), Extent(ys), data);
  }

  /** On a 24-plane frame buffer the round trip restores the data exactly. */
  lemma GetAfterSetRgb24(s: Screen, buffer: bool, x1: int, y1: int, x2: int, y2: int, data: seq<Byte>)
    requires |data| == PixelBufferSize(x1, y1, x2, y2)
    ensures GetPixelData(Apply(s, SetPixelData(Rgb24, x1, y1, x2, y2, data)), Rgb24, buffer, x1, y1, x2, y2) == data
  {
    GetAfterSet(s, Rgb24, buffer, x1, y1, x2, y2, data);
    assert data[..|data|] == data;
    TransferRgb24IsIdentity(data);
  }
}
